=== FILE: README.md ===
# Go-Bank core in Dafny

A Dafny model of the core of Go-Bank, a small banking service written in Go.
It covers three parts:

- **The ledger store's transfer transaction.**
  - `execTx` runs a closure inside a PostgreSQL transaction. It commits if the closure succeeds and rolls back otherwise.
  - `TransferTx` and `addMoney` insert one transfer row and two entries. They then move the money between the two balances, always updating the lower account id first.
- **The HTTP handlers around the ledger.**
  - Create, read and list accounts. Create a transfer.
  - Each comes in a REST version that is scoped to the authenticated user, and an older version that is not.
- **Authentication and the user update.**
  - The bearer-token middleware and the gRPC `authorizeUser`.
  - The refresh-token renewal.
  - The gRPC `UpdateUser` with its optional fields.

The store is an immutable value `Ledger.Db`. Every query is a pure function from one `Db` to the next.

- **Failures.** Every query takes a fault parameter: `Some(message)` makes the driver fail. This is how the error paths are reached.
- **PostgreSQL semantics inside a transaction.**
  - A server-side error poisons the transaction, and later statements fail.
  - COMMIT of a poisoned transaction turns into a rollback.
  - An UPDATE that matches no row is reported by the pgx driver as "no rows". It does not poison the transaction.
- **Statement log.** Every transaction records the statements it sent. The lock order of the balance updates is therefore a property of that log.
- **Handlers.** Each handler is a function of the store, the decoded request, and the collaborators it calls: token verifier, session store, hasher, clock and validators. It returns the response it writes, and the store it leaves behind.
- **Two versions.** Where the code has one of the defects listed under "## Findings", the handler takes an `Http.Version`:
  - `AsWritten` is the code as it stands;
  - `Intended` has the defect corrected.

  Each contract states what each version does. Token renewal is two functions instead: `RenewToken.RenewAccessTokenAsWritten` and `RenewToken.RenewAccessToken`.
- **Go integers.** `int64` and `int32` are subset types. Their wrap-around is written out where the code relies on it: negation of an amount, and the page offset.

Each module's files:

- `wrappers.dfy`: `Option` and `Result`.
- `goint.dfy`: Go integer widths.
- `ledger.dfy`: rows and the store.
- `queries.dfy`: single statements and transaction semantics.
- `tx_transfer.dfy`: `execTx`, `TransferTx`, `addMoney`.
- `transfer_props.dfy`: properties of the transfer.
- `gostrings.dfy`: `strings.Fields` and `strings.ToLower`.
- `decimal.dfy`: `%d` and a reader for it.
- `http.dfy`: statuses, bodies, error texts, binding rules.
- `transfer_api.dfy` and `account_api.dfy`: the handlers.
- `auth.dfy`: both header parsers.
- `renew_token.dfy`: token renewal.
- `update_user.dfy`: `UpdateUser`.

## Model

| member | source | states |
|---|---|---|
| GoInt.Neg64 | db/sqlc/tx_transfer.go:58-61 | `-x` on int64 is exact except at MinInt64, which it maps to itself |
| GoInt.Neg64Wraps | db/sqlc/tx_transfer.go:60 | the case split of `Neg64` is two's-complement negation, i.e. the exact negation wrapped into int64 |
| GoInt.NegNeg | db/sqlc/tx_transfer.go:77 | negating the amount twice, as the `else` branch and `addMoney` together do, gives the amount back, MinInt64 included |
| GoInt.Mul32 | api/rest_api/account.go:89 | int32 multiplication is exact whenever the product fits |
| GoInt.Sub32 | api/rest_api/account.go:89 | int32 subtraction is exact whenever the difference fits |
| Ledger.TotalTwoChanged | db/sqlc/tx_transfer.go:74-78 | when only two balances change, the total money changes by exactly their two changes |
| Queries.CreateTransfer | db/sqlc/tx_transfer.go:49-56 | in a usable transaction with no fault, appends exactly one transfer row, numbered after the existing ones, and returns it; otherwise nothing is written and the transaction is poisoned |
| Queries.CreateEntry | db/sqlc/tx_transfer.go:58-72 | the same for one entry row |
| Queries.AddAccountBalance | db/sqlc/tx_transfer.go:89-99 | succeeds exactly when the transaction is usable, there is no fault, the row exists and the sum fits in int64; then only that balance changes. A missing row gives "no rows" without poisoning; an overflow poisons |
| Queries.GetAccount | api/rest_api/transfer.go:59 | returns the stored row exactly when it exists and there is no fault; a missing row is pgx's "no rows" |
| Queries.CreateAccount | api/rest_api/account.go:24-29 | keeps every account under its own id; on success adds exactly one new account, under a fresh id, with the given owner, balance and currency; on failure changes nothing |
| TxTransfer.ExecTx | db/sqlc/tx_transfer.go:11-25 | a failed BEGIN runs nothing; a failed transaction persists nothing; it commits exactly the body's state, and only when the body and COMMIT both succeed; a body error is returned, joined with the rollback's error when that fails too |
| TxTransfer.EmptyTransactionCommitsUnchanged | db/sqlc/tx_transfer.go:11-24 | a transaction whose body sends nothing and succeeds commits the store it began with unchanged, sends nothing, returns the body's value, and fails only when COMMIT fails |
| TxTransfer.ExecTxBeginFailureIgnoresBody | db/sqlc/tx_transfer.go:12-15 | when BEGIN fails, the outcome does not depend on the body |
| TxTransfer.AddMoney | db/sqlc/tx_transfer.go:88-101 | changes no balance but the two named; sends the first update, and the second only if the first succeeded; a failed first update returns zero-value rows |
| TxTransfer.AddMoneyFirstMissing | db/sqlc/tx_transfer.go:89-95 | when the first id has no row, nothing changes and the second update is never sent, whether or not the first update faulted; the transaction is poisoned exactly when it faulted |
| TxTransfer.AddMoneySecondMissing | db/sqlc/tx_transfer.go:96-100 | when only the first id has a row, only that balance moves, by `-amount` |
| TxTransfer.AddMoneyBoth | db/sqlc/tx_transfer.go:88-101 | when both ids have rows, the first loses `amount`, the second gains it, and every other balance stays |
| TxTransfer.InsertRows | db/sqlc/tx_transfer.go:49-72 | the three inserts are sent in order up to the first failure; their success is exactly the absence of faults; on success one transfer and two entries (debit `-amount`, credit `amount`) are appended and returned; the error is that of the first failing insert |
| TxTransfer.OrderedAddMoney | db/sqlc/tx_transfer.go:74-78 | the balance updates are a prefix of [lower id, higher id] whichever side the lower id is on, and no balance but the two named changes |
| TxTransfer.TransferBody | db/sqlc/tx_transfer.go:46-83 | the closure fails exactly when an insert fails: errors of the balance updates never fail it |
| TxTransfer.TransferBodyLog | db/sqlc/tx_transfer.go:49-78 | the closure's statements follow the script: the inserts up to the first failure, and the updates only after all three inserts succeeded |
| TxTransfer.TransferBodyAccounts | db/sqlc/tx_transfer.go:74-78 | the closure creates no account and changes no account but the two named |
| TxTransfer.TransferBodyRows | db/sqlc/tx_transfer.go:49-72 | a successful closure has written, and returns, one transfer row and the two entries, numbered after the existing rows |
| TxTransfer.TransferTx | db/sqlc/tx_transfer.go:43-86 | a failed BEGIN sends nothing; a failed transfer leaves the store unchanged |
| TxTransfer.TransferTxRunsBody | db/sqlc/tx_transfer.go:43-86 | what the transfer commits, returns and sends is what its closure built from a fresh transaction, with the error composition of `execTx` |
| TxTransfer.TransferTxWritesRows | db/sqlc/tx_transfer.go:49-72 | a committed transfer adds exactly one transfer row and the two entries, and returns them |
| TxTransfer.TransferTxAccounts | db/sqlc/tx_transfer.go:43-86 | whatever happens, no account is added or removed and no account but the two named changes |
| TxTransfer.TransferTxLog | db/sqlc/tx_transfer.go:46-83 | a transfer's statements are a prefix of the three inserts followed by the two ordered updates; at most five are sent; none if BEGIN fails |
| TransferProps.OrderedAddMoneyBalances | db/sqlc/tx_transfer.go:74-101 | in a usable transaction: if the lower id has no row, nothing moves; if only the lower id has one, only its balance moves; if both have rows, every balance moves by its transfer delta |
| TransferProps.CommittedBalances | db/sqlc/tx_transfer.go:43-101 | the same three cases for a committed transfer |
| TransferProps.TransferTxMovesMoney | db/sqlc/tx_transfer.go:74-78 | a committed transfer between existing accounts debits the source by the amount and credits the destination by it, and touches nothing else |
| TransferProps.TransferTxConservesTotal | db/sqlc/tx_transfer.go:58-78 | the total money is conserved by a committed transfer between existing accounts, for every amount but MinInt64 |
| TransferProps.SelfTransferLeavesAccounts | db/sqlc/tx_transfer.go:74-78 | a committed transfer from an account to itself leaves every account as it was |
| TransferProps.DroppedUpdateErrorCommits | db/sqlc/tx_transfer.go:74-95 | when the lower id has no row, its update fails with "no rows" and the error is dropped: the transfer and both entries commit, no balance changes, and only the lower id is updated |
| TransferProps.NoUpdatesIn | db/sqlc/tx_transfer.go:49-72 | statements without balance updates, such as the three inserts, name no updated account |
| TransferProps.UpdatesIds | db/sqlc/tx_transfer.go:74-78 | the first k of the two ordered updates name the first k of [lower id, higher id] |
| TransferProps.ScriptUpdatedIds | db/sqlc/tx_transfer.go:49-78 | any prefix of the transfer's statement script updates a prefix of [lower id, higher id], one account per statement past the three inserts |
| TransferProps.LockOrder | db/sqlc/tx_transfer.go:74-78 | in every run, the balance updates sent are a prefix of [lower id, higher id], one for each statement after the three inserts |
| TransferProps.FailedInsertRollsBack | db/sqlc/tx_transfer.go:17-72 | a failing insert rolls everything back, sends no balance update, and returns that insert's error (joined with the rollback's when that fails) |
| TransferProps.EntriesCancel | db/sqlc/tx_transfer.go:58-69 | the two entries of a committed transfer sum to zero exactly when the amount is not MinInt64 |
| TransferProps.TransferTxPreservesValid | db/sqlc/tx_transfer.go:43-86 | a transfer keeps every account stored under its own id |
| TransferProps.UnfaultedFailureIsRolledBackCommit | db/sqlc/tx_transfer.go:17-24 | with no driver fault, a transfer fails only through an overflowing balance update that makes COMMIT roll back |
| TransferProps.HappyPath | db/sqlc/tx_transfer.go:43-86 | a transfer between two different existing accounts, with no fault and no overflow, commits, and returns both rows as committed |
| TransferProps.MissingHigherAccountCommits | db/sqlc/tx_transfer.go:74-100 | when only the lower id has a row, the transfer still commits and only that side moves, so the total money changes by that side's delta |
| TransferProps.TransferExample | db/sqlc/tx_transfer.go:43-86 | 150 from 1 (500) to 2 (200) leaves both at 350, with transfer 1 and entries -150 and +150 |
| TransferProps.LostCreditExample | db/sqlc/tx_transfer.go:74-100 | 10 from account 1 (100) to a missing account 2 commits, with account 1 at 90 and the total down by 10 |
| GoStrings.TrimLeft | middlewares/auth.go:13 | drops exactly the leading white space |
| GoStrings.Word | middlewares/auth.go:13 | the longest prefix without white space |
| GoStrings.Fields | middlewares/auth.go:13 | every field is non-empty and holds no white space |
| GoStrings.FieldsCons | middlewares/auth.go:13 | a field followed by white space or by nothing is the first field, and the fields of the rest follow it |
| GoStrings.FieldsSkipsSpace | middlewares/auth.go:13 | leading white space never changes the fields |
| GoStrings.FieldsUnwords | middlewares/auth.go:13 | splitting fields joined by single spaces gives the fields back |
| GoStrings.HeaderFields | middlewares/auth.go:13-28 | a scheme and a token with any white space around and between them, followed by anything after white space, are the first two fields |
| GoStrings.ToLower | middlewares/auth.go:21 | keeps the length and lower-cases each ASCII letter, leaving every other character |
| GoStrings.ToLowerIdempotent | api/grpc_api/authorization.go:31-32 | lower-casing twice is lower-casing once |
| GoStrings.BearerSpellings | middlewares/auth.go:21 | "Bearer", "BEARER" and "bEaReR" all lower-case to "bearer", and "Basic" does not |
| Decimal.Itoa | api/rest_api/transfer.go:69 | `%d` writes a non-empty string that starts with '-' exactly for negative numbers |
| Decimal.AtoiItoa | api/rest_api/transfer.go:69 | reading back what `%d` wrote gives the number |
| Decimal.ItoaInjective | api/rest_api/transfer.go:69 | different ids are written differently |
| Http.TxErrorText | db/sqlc/tx_transfer.go:19-22 | a joined error reads "tx err: …, rb err …" with both errors; a plain error is its own text |
| Http.LookupStatusAsWritten | api/rest_api/transfer.go:60-66 | as written, a failed lookup is 404 only for `database/sql`'s "no rows" sentinel and 500 otherwise |
| Http.LookupStatus | api/rest_api/transfer.go:60-66 | a failed lookup is 404 exactly for a "no rows" error, whichever library raised it, and 500 otherwise |
| Http.StoreLookupNeverNotFoundAsWritten | api/rest_api/transfer.go:59-66 | with the pgx store, the as-written check never gives 404; the intended one gives 404 exactly for a missing account |
| Http.FailedLookupStatus | api/rest_api/transfer.go:60-66 | as written a failed lookup is 404 only for `database/sql`'s sentinel, as intended for every "no rows"; anything else is 500 |
| Http.MissingRowStatus | api/rest_api/account.go:51-57 | pgx's "no rows", the error of a missing row, gets 500 as written and 404 as intended |
| Http.LookupStatusesDiffer | api/rest_api/account.go:51-57 | the two classifications differ exactly on pgx's "no rows" |
| Http.BindingMessage | api/rest_api/transfer.go:22-24 | the validator's message is empty exactly when no rule failed |
| Http.RequiredText | api/rest_api/transfer.go:17 | `required` on a string fails exactly for the empty string |
| Http.RequiredRange | api/rest_api/transfer.go:14-15 | `required,min=lo[,max=hi]` passes exactly for a non-zero value within the bounds, and reports at most one failure, for that field |
| Http.RequiredPositive | api/rest_api/transfer.go:16 | `required,gt=0` passes exactly for a positive value |
| TransferApi.TransferReqViolations | api/rest_api/transfer.go:13-18 | a transfer request binds exactly when both ids are at least 1, the amount is positive and the currency is not empty |
| TransferApi.ValidAccount | api/rest_api/transfer.go:58-74 | accepts exactly an existing account in the requested currency; a driver error gives 500 with its message; a missing account gives 500 as written and 404 as intended, with pgx's "no rows" text; a mismatch gives 400 naming the account id and both currencies |
| TransferApi.RunTransfer | api/rest_api/transfer.go:42-55 | calls the transfer with the request's ids and amount; a commit gives 200 with the result and the committed store; a failure gives 500 with the error's text and changes nothing |
| TransferApi.CreateTransfer | api/rest_api/transfer.go:20-56 | the transfer runs exactly for a request that binds, with both accounts existing in its currency and the source owned by the caller; a malformed request is a 400; a missing source account gets 500 as written and 404 as intended; an admitted request is answered as the transaction ends, 200 with its result and the committed store or 500 with the store unchanged; only a committed transfer changes the store |
| TransferApi.CreateTransferLegacy | api/transfer.go:20-46 | the transfer runs exactly for a request that binds, with both accounts existing in its currency, whoever owns them; a malformed request is a 400; otherwise the first account that fails its lookup decides the response, with the status of its version; an admitted request is answered as the transaction ends, 200 with its result and the committed store or 500 with the store unchanged; only a committed transfer changes the store |
| TransferApi.CreateTransferCheckOrder | api/rest_api/transfer.go:26-41 | the source lookup, the ownership check and the destination lookup run in that order, and the first failure decides the response |
| TransferApi.MissingSourceStatus | api/transfer.go:48-57 | a missing source account, on both endpoints: as written a 500 with pgx's "no rows in result set", and no transfer; as intended a 404 |
| TransferApi.BindingRules | api/rest_api/transfer.go:13-18 | a non-positive amount or an id below 1 is refused; a transfer from an account to itself binds |
| TransferApi.LegacySkipsOwnership | api/transfer.go:26-31 | for the owner, both endpoints behave the same; for anyone else, the older one runs a transfer that the REST one refuses with 401 |
| TransferApi.MismatchMessageNamesAccount | api/rest_api/transfer.go:69 | the mismatch message starts with "account [" followed by the account id, which reads back as that id |
| AccountApi.StoreAccount | api/rest_api/account.go:29-37 | 200 exactly when the store can hand out a new id and there is no fault, returning the new row under a fresh id; otherwise 500 and the store unchanged |
| AccountApi.CreateAccountForUser | api/rest_api/account.go:17-38 | a created account belongs to the authenticated user, starts at balance 0 and has the requested currency; a missing currency is refused and changes nothing |
| AccountApi.CreateAccountLegacy | api/account.go:17-37 | the owner comes from the request body, and both owner and currency are required |
| AccountApi.Lookup | api/rest_api/account.go:50-58 | finds exactly the stored account; as written no failure is a 404, so a missing account is 500 with pgx's "no rows" text; as intended exactly a missing account is 404; a driver error is 500 in both |
| AccountApi.BindId | api/rest_api/account.go:40-49 | the path id binds exactly when it is at least 1; otherwise 400 |
| AccountApi.GetAccountById | api/rest_api/account.go:44-71 | 200 with the account exactly for its owner; another user's account is 401; a missing one is 500 as written and 404 as intended |
| AccountApi.GetAccountByIdLegacy | api/account.go:43-62 | 200 with the account for any caller whenever the account exists; a missing one is 500 as written and 404 as intended |
| AccountApi.GetAccountByIdAgreesForOwner | api/account.go:43-62 | in either version, both read handlers give the same response to the owner, and for a missing account |
| AccountApi.PageViolations | api/rest_api/account.go:74-77 | a page request binds exactly when the page is at least 1 and the size is 5 to 10 |
| AccountApi.PageOffsetAsWritten | api/rest_api/account.go:89 | as written, the offset is computed in int32 and is the exact product only when that product fits |
| AccountApi.PageOffset | api/rest_api/account.go:89 | the intended offset of a page request that binds is exactly the number of rows before the page, `(page-1)*size`, and so never negative |
| AccountApi.Offset | api/rest_api/account.go:89 | both versions send the exact number of rows before the page while it fits in int32; as intended always; as written the int32-wrapped product |
| AccountApi.ListPage | api/rest_api/account.go:79-100 | the query runs exactly for a request that binds, with the owner, the size as the limit and the page's offset in the handler's version; its rows are returned with 200, and its error gives 500 |
| AccountApi.GetAccounts | api/rest_api/account.go:79-99 | the query runs exactly for a page that binds, scoped to the authenticated user with limit equal to the page size; 200 with the listed rows, 500 when the store fails, 400 when the page does not bind; as intended the offset is the exact number of rows before the page; as written a page that starts beyond int32 gets a wrapped offset, never the exact one |
| AccountApi.GetAccountsLegacy | api/account.go:76-79 | the older list sends the empty string as the owner, whoever calls it, so the query filters on the owner "" instead of the caller; its limit and offset are those of the REST handler |
| AccountApi.FirstPageAtStart | api/rest_api/account.go:89 | page 1 starts at row 0 |
| AccountApi.ConsecutivePages | api/rest_api/account.go:86-90 | page p+1 starts where the `size` rows of page p end |
| AccountApi.PagesDisjoint | api/rest_api/account.go:86-90 | distinct pages never overlap |
| AccountApi.PageOffsetAgrees | api/rest_api/account.go:89 | the as-written offset equals the intended one whenever the product fits in int32 |
| AccountApi.PageOffsetWraps | api/rest_api/account.go:74-89 | page 214748366 of size 10 binds, but as written its offset wraps to -2147483646, while the intended offset is 2147483650 |
| Auth.IsAuthenticated | middlewares/auth.go:11-46 | passes exactly a header with at least two fields, whose first field is "bearer" in any letter case and whose second field the verifier accepts, and stores the verifier's username. Fewer than two fields is "Authorization header format required!", another scheme is "Invalid authorization header format!", and "User Unauthenticated!" only ever means the verifier refused |
| Auth.TokenFieldNeverEmpty | middlewares/auth.go:28-35 | the second field is never empty, so the empty-token check never decides |
| Auth.BearerHeaderAuthenticates | middlewares/auth.go:12-45 | a Bearer header with any white space around and between scheme and token, and anything after them, authenticates exactly as the verifier judges the token |
| Auth.OneFieldIsFormatRequired | middlewares/auth.go:13-20 | a header of white space only, or holding one field, is refused for its format before the verifier is called |
| Auth.AuthorizeUser | api/grpc_api/authorization.go:17-41 | missing metadata, then a missing header, then the format, then the scheme (naming it lower-cased), then the verifier, each with its own error; only the first authorization value is read |
| Auth.OnlyFirstValueCounts | api/grpc_api/authorization.go:22-26 | authorization values after the first never change the outcome |
| Auth.ParsersAgree | api/grpc_api/authorization.go:27-40 | given the same verifier, the middleware passes a header exactly when the gRPC check accepts it, with the same username |
| RenewToken.SessionProblems | api/rest_api/token.go:37-60 | lists exactly the failed session checks (blocked, another user, another refresh token, expired), in order; it is empty exactly for a sound session |
| RenewToken.Prelude | api/rest_api/token.go:18-36 | a body that fails to bind is a 400, a refused refresh token a 401 with the verifier's error; a failed session lookup is answered with its error text and the status its version gives it (404 for a missing session and 500 for anything else as intended, so a missing session is 500 as written); otherwise it yields the session and the token's username |
| RenewToken.PreludeVersions | api/rest_api/token.go:28-36 | both versions of the prelude pass and fail together, with the same session and the same body; their statuses differ only when the session lookup fails with pgx's "no rows" |
| RenewToken.Issue | api/rest_api/token.go:61-76 | 200 with the new token exactly when the generator succeeds, else 500 |
| RenewToken.RenewAccessTokenAsWritten | api/rest_api/token.go:17-77 | as written, a failed prelude writes its one response (so a missing session is 500); past it, one 401 per failed session check in check order and then the generator's response last, so a token is written whenever the request gets past the session lookup and the generator succeeds, whatever the session checks found, although the client sees 401 when any of them failed |
| RenewToken.MissingSessionStatus | api/rest_api/token.go:28-36 | a refresh token whose session does not exist gets exactly one response with pgx's "no rows in result set": 500 as written, 404 as intended |
| RenewToken.RenewAccessToken | api/rest_api/token.go:17-77 | as intended, one response; a token is issued exactly for a sound session whose token can be generated, and the status is 200 exactly then |
| RenewToken.RenewVersionsAgree | api/rest_api/token.go:37-76 | both versions write the same thing for a sound session; when the request stops before the session checks, both write one response with the same body; for an unsound session both start with the first failed check's 401 |
| RenewToken.BlockedSessionStillIssued | api/rest_api/token.go:37-76 | for a blocked session, as written, the client gets 401 "Session Blocked!" followed by a new access token; as intended, the 401 alone |
| RenewToken.ExpiryIsStrict | api/rest_api/token.go:55 | a session is still valid at the instant of its expiry |
| UpdateUser.ValidateUpdateUserRequest | api/grpc_api/update_user.go:79-99 | each violation names a checked field (the username always, an optional field only when sent) that its validator rejects, with the validator's message; fields come in the order username, password, full_name, email, none twice, and there are as many violations as rejected fields |
| UpdateUser.ValidationPasses | api/grpc_api/update_user.go:79-98 | there are no violations exactly when the username and every sent optional field pass; a rejected username comes first |
| UpdateUser.BuildParams | api/grpc_api/update_user.go:34-60 | each optional column is set exactly when its field was sent; password and password-changed-at are set together, to the hash and the current time; fails only when hashing fails |
| UpdateUser.StoreError | api/grpc_api/update_user.go:61-67 | a failed update is NotFound exactly for "no rows", and Internal otherwise |
| UpdateUser.StoreErrorAsWritten | api/grpc_api/update_user.go:61-67 | as written, NotFound only for `database/sql`'s sentinel |
| UpdateUser.StoreFailure | api/grpc_api/update_user.go:62-66 | a user with no row is Internal "cannot register user: …" as written and NotFound "user not found" as intended; every other store error is Internal |
| UpdateUser.UpdateUser | api/grpc_api/update_user.go:19-77 | Unauthenticated before anything else, then PermissionDenied for another user, then InvalidArgument with the violations; the store is called exactly for the authenticated owner's valid request whose password hashes, with the built parameters, and its user is the reply; a missing user is Internal as written and NotFound as intended |
| UpdateUser.ChecksInOrder | api/grpc_api/update_user.go:20-32 | an invalid request is refused as unauthenticated or unauthorized before its violations are reported, and never reaches the store |
| UpdateUser.NoPasswordNoHash | api/grpc_api/update_user.go:45-60 | without a password the hasher is never consulted and the password columns stay unset |
| UpdateUser.StoreErrorsDiffer | api/grpc_api/update_user.go:63-66 | the two classifications differ exactly on pgx's "no rows" |

## Left out

- The SQL of the generated queries in `db/sqlc` is not part of this model, apart from `tx_transfer.go` and `models.go`. Each query is modelled from its name and parameters, with the usual PostgreSQL behaviour.
- Row ids of entries and transfers are their positions. PostgreSQL sequences also advance in rolled-back transactions; the model does not.
- Creation timestamps and a session's user agent and client IP are left out, because no core operation reads them. The current time is a parameter.
- `main.go`, the worker, registration, login, e-mail verification, and the REST user handlers are outside the core.
- JWT signing and verification, password hashing, the `utils.Validate*` predicates, `ListAccount`, `GetSession` and the store's `UpdateUser` are parameters. The two declarations in `utils/jwt.go` do not match their callers, so their internals are not modelled.
- JSON, URI and query-string decoding are parameters: the decoded value, or the decoder's error message. Binding rules after decoding are modelled.
- `TransferTx` returns its partial result next to an error, but the handlers discard it on error. The model returns only the error.
- Concurrency and real row locking belong to the database. The model only states the order of the balance updates in each transaction's statement log.
- `helpers.UnauthenticatedError`, `helpers.InvalidArgumentError` and `helpers.FieldViolation` are not part of this model. The gRPC errors keep the code and the underlying message or violations. The message of an InvalidArgument error is left empty.
- gin's "headers were already written" warning is not modelled. A handler's effect is the sequence of responses it writes: the client gets the first status and every body.
- GoStrings.ToLower: lower-cases ASCII letters only. `strings.ToLower` also lower-cases other Unicode letters. The only ones Go maps to ASCII are the Kelvin sign U+212A, to 'k', and U+0130, to 'i'. "bearer" contains neither letter, so the scheme test is unaffected.
- Auth.AuthorizeUser: the metadata map is taken to have lower-case keys already, as gRPC delivers incoming metadata. `md.Get`'s own lower-casing of the key is not modelled.
- UpdateUser.UpdateUser: the message of an Unauthenticated reply is the error of `authorizeUser`, without the helper's wrapping.
- The schema is not part of this model. The model takes `transfers` and `entries` to have no foreign key to `accounts`: an insert naming an account id without a row succeeds. The next three lines depend on that assumption.
- DroppedUpdateErrorCommits: holds only without a foreign key from `transfers` to `accounts`. With one, the INSERT at db/sqlc/tx_transfer.go:49 fails for the missing account (SQLSTATE 23503), and the whole transfer rolls back.
- MissingHigherAccountCommits: holds only without that foreign key, for the same reason.
- LostCreditExample: holds only without that foreign key, for the same reason.

## Findings

| source | as written | input that shows it | evidently intended | confidence | as-written member | corrected member |
|---|---|---|---|---|---|---|
| api/rest_api/transfer.go:61 | a failed lookup is 404 only when `err == sql.ErrNoRows`, but the store is pgx, whose "no rows" is `pgx.ErrNoRows` (the same check is at api/transfer.go:51, api/rest_api/account.go:52, api/account.go:51 and api/rest_api/token.go:30) | GET of an account id that does not exist: pgx's "no rows in result set" is answered 500 (`Http.StoreLookupNeverNotFoundAsWritten`) | 404 for a missing row | high; not executed | Http.LookupStatusAsWritten | Http.LookupStatus |
| api/grpc_api/update_user.go:63 | a failed update is NotFound only when `err == sql.ErrNoRows`, which the pgx store never returns | UpdateUser for a username with no row: Internal "cannot register user: no rows in result set" (`UpdateUser.StoreErrorsDiffer`) | NotFound "user not found" | high; not executed | UpdateUser.StoreErrorAsWritten | UpdateUser.StoreError |
| api/rest_api/token.go:37-60 | the four session checks write a 401 but do not return, so a new access token is generated and written afterwards | a valid refresh token whose session is blocked: 401 "Session Blocked!" followed by a new access token in the same response (`RenewToken.BlockedSessionStillIssued`) | stop at the first failed check, issuing no token | high; not executed | RenewToken.RenewAccessTokenAsWritten | RenewToken.RenewAccessToken |
| api/rest_api/account.go:89 | the offset `(req.Page - 1) * req.Size` is computed in int32 | page 214748366, size 10 binds but the offset wraps to -2147483646, which PostgreSQL refuses as a negative OFFSET (`AccountApi.PageOffsetWraps`) | the exact, non-negative offset | medium; not executed | AccountApi.PageOffsetAsWritten | AccountApi.PageOffset |

=== FILE: account_api.dfy ===
/** The account endpoints of api/rest_api/account.go, scoped to the
    authenticated user, and their older, unscoped versions in api/account.go:
    create an account, read one by id, and list a page of them. */
module AccountApi {
  import opened Wrappers
  import opened GoInt
  import opened Ledger
  import opened Queries
  import opened Http

  type AccountResponse = Response<Account>

  const NotOwnerMessage := "Account does'nt belong to authenticated user!"

  /** The store call both create handlers end with: 500 with the error, or
      200 with the new row. */
  function StoreAccount(db: Db, arg: CreateAccountParams, fault: Option<string>): (r: (Db, AccountResponse))
    requires Valid(db)
    ensures Valid(r.0)
    ensures r.1.status == StatusOK <==> fault.None? && db.lastAccountId < MaxInt64
    ensures r.1.status == StatusOK ==>
      && r.1.body.Data?
      && var a := r.1.body.value;
      && a.id !in db.accounts
      && a == Account(a.id, arg.owner, arg.balance, arg.currency)
      && r.0 == db.(accounts := db.accounts[a.id := a], lastAccountId := db.lastAccountId + 1)
    ensures r.1.status != StatusOK ==> r.0 == db && r.1.status == StatusInternalServerError
  {
    var (db', res) := CreateAccount(db, arg, fault);
    if res.Failure? then (db, Response(StatusInternalServerError, ErrorBody(ErrorText(res.error))))
    else (db', Response(StatusOK, Data(res.value)))
  }

  /** POST /v1/account/add: the owner is the authenticated user, the balance
      starts at zero. `currency` is the decoded body field, or the decoder's
      error message. */
  function CreateAccountForUser(db: Db, username: string, currency: Result<string, string>, fault: Option<string>): (r: (Db, AccountResponse))
    requires Valid(db)
    ensures Valid(r.0)
    ensures r.1.status == StatusOK <==>
      currency.Success? && currency.value != [] && fault.None? && db.lastAccountId < MaxInt64
    ensures r.1.status == StatusOK ==>
      && r.1.body.Data?
      && var a := r.1.body.value;
      && a.owner == username && a.balance == 0 && a.currency == currency.value
      && a.id !in db.accounts && r.0.accounts == db.accounts[a.id := a]
    ensures r.1.status != StatusOK ==> r.0 == db
  {
    if currency.Failure? then (db, Response(StatusBadRequest, ErrorBody(currency.error)))
    else
      var errs := RequiredText("Currency", currency.value);
      if errs != [] then (db, Response(StatusBadRequest, ErrorBody(BindingMessage("createAccountReq", errs))))
      else StoreAccount(db, CreateAccountParams(username, 0, currency.value), fault)
  }

  datatype CreateAccountReq = CreateAccountReq(owner: string, currency: string)

  /** The older create handler: the owner comes from the request body. */
  function CreateAccountLegacy(db: Db, body: Result<CreateAccountReq, string>, fault: Option<string>): (r: (Db, AccountResponse))
    requires Valid(db)
    ensures Valid(r.0)
    ensures r.1.status == StatusOK <==>
      body.Success? && body.value.owner != [] && body.value.currency != [] && fault.None? && db.lastAccountId < MaxInt64
    ensures r.1.status == StatusOK ==>
      && r.1.body.Data?
      && var a := r.1.body.value;
      && a.owner == body.value.owner && a.balance == 0 && a.currency == body.value.currency
      && a.id !in db.accounts && r.0.accounts == db.accounts[a.id := a]
    ensures r.1.status != StatusOK ==> r.0 == db
  {
    if body.Failure? then (db, Response(StatusBadRequest, ErrorBody(body.error)))
    else
      var req := body.value;
      var errs := RequiredText("Owner", req.owner) + RequiredText("Currency", req.currency);
      if errs != [] then (db, Response(StatusBadRequest, ErrorBody(BindingMessage("createAccountReq", errs))))
      else StoreAccount(db, CreateAccountParams(req.owner, 0, req.currency), fault)
  }

  /** The lookup both read handlers share, after binding: the account, or the
      response for a failed lookup. */
  function Lookup(version: Version, db: Db, id: Int64, fault: Option<string>): (r: Result<Account, AccountResponse>)
    ensures r.Success? <==> fault.None? && id in db.accounts
    ensures r.Success? ==> r.value == db.accounts[id]
    // as written no failed lookup is a 404; as intended exactly the missing row is
    ensures r.Failure? ==> (r.error.status == StatusNotFound <==> version.Intended? && fault.None?)
    ensures r.Failure? ==> r.error.status in {StatusNotFound, StatusInternalServerError}
    ensures fault.None? && id !in db.accounts ==>
      r == Failure(Response(MissingRowStatus(version), ErrorBody("no rows in result set")))
  {
    var got := GetAccount(db, id, fault);
    if got.Failure? then Failure(Response(FailedLookupStatus(version, got.error), ErrorBody(ErrorText(got.error))))
    else Success(got.value)
  }

  /** The `:id` path parameter after decoding, checked against
      `binding:"required,min=1"`. */
  function BindId(uri: Result<Int64, string>): (r: Result<Int64, AccountResponse>)
    ensures r.Success? <==> uri.Success? && uri.value >= 1
    ensures r.Success? ==> r.value == uri.value
    ensures r.Failure? ==> r.error.status == StatusBadRequest
  {
    if uri.Failure? then Failure(Response(StatusBadRequest, ErrorBody(uri.error)))
    else
      var errs := RequiredRange("ID", uri.value, 1, None);
      if errs != [] then Failure(Response(StatusBadRequest, ErrorBody(BindingMessage("getAccountByIdReq", errs))))
      else Success(uri.value)
  }

  /** GET /v1/account/:id: the account, only to its owner. */
  function GetAccountById(version: Version, db: Db, username: string, uri: Result<Int64, string>, fault: Option<string>): (r: AccountResponse)
    ensures r.status == StatusOK <==>
      uri.Success? && uri.value >= 1 && fault.None? && uri.value in db.accounts
      && db.accounts[uri.value].owner == username
    ensures r.status == StatusOK ==> r.body == Data(db.accounts[uri.value])
    // another user's account is refused; a missing one gets the status of a missing row
    ensures (&& uri.Success? && uri.value >= 1 && fault.None? && uri.value in db.accounts
             && db.accounts[uri.value].owner != username) ==>
      r == Response(StatusUnauthorized, Refusal(NotOwnerMessage))
    ensures uri.Success? && uri.value >= 1 && fault.None? && uri.value !in db.accounts ==>
      r == Response(MissingRowStatus(version), ErrorBody("no rows in result set"))
  {
    var id := BindId(uri);
    if id.Failure? then id.error
    else
      var got := Lookup(version, db, id.value, fault);
      if got.Failure? then got.error
      else if got.value.owner != username then Response(StatusUnauthorized, Refusal(NotOwnerMessage))
      else Response(StatusOK, Data(got.value))
  }

  /** The older read handler: any existing account, whoever owns it. */
  function GetAccountByIdLegacy(version: Version, db: Db, uri: Result<Int64, string>, fault: Option<string>): (r: AccountResponse)
    ensures r.status == StatusOK <==> uri.Success? && uri.value >= 1 && fault.None? && uri.value in db.accounts
    ensures r.status == StatusOK ==> r.body == Data(db.accounts[uri.value])
    ensures uri.Success? && uri.value >= 1 && fault.None? && uri.value !in db.accounts ==>
      r == Response(MissingRowStatus(version), ErrorBody("no rows in result set"))
  {
    var id := BindId(uri);
    if id.Failure? then id.error
    else
      var got := Lookup(version, db, id.value, fault);
      if got.Failure? then got.error else Response(StatusOK, Data(got.value))
  }

  /** The two read handlers agree except that the older one hands any
      account to anyone. */
  lemma GetAccountByIdAgreesForOwner(version: Version, db: Db, username: string, uri: Result<Int64, string>, fault: Option<string>)
    ensures uri.Success? && uri.value in db.accounts && db.accounts[uri.value].owner == username ==>
      GetAccountById(version, db, username, uri, fault) == GetAccountByIdLegacy(version, db, uri, fault)
    ensures uri.Success? && uri.value !in db.accounts ==>
      GetAccountById(version, db, username, uri, fault) == GetAccountByIdLegacy(version, db, uri, fault)
  {
  }

  /** The list query's parameters: the owner to filter by, the page size and
      the number of rows to skip. */
  datatype ListAccountParams = ListAccountParams(owner: string, limit: Int32, offset: Int64)

  /** The query string after decoding. */
  datatype PageReq = PageReq(page: Int32, size: Int32)

  /** `(Page-1)*Size` as written: computed in int32, where it can wrap. */
  function PageOffsetAsWritten(page: Int32, size: Int32): (offset: Int32)
    ensures page > MinInt32 && MinInt32 <= (page - 1) * size <= MaxInt32 ==> offset == (page - 1) * size
  {
    Mul32(Sub32(page, 1), size)
  }

  /** The rows before page `page`, computed in int64, where the product of
      two int32 values cannot wrap. Only bound requests reach it. */
  function PageOffset(page: Int32, size: Int32): (offset: Int64)
    requires page >= 1 && 5 <= size <= 10
    ensures offset == (page - 1) * size
    ensures offset >= 0
  {
    MulGap(0, page - 1, size);
    MulGap(page - 1, MaxInt32, size);
    (page - 1) * size
  }

  /** The offset a list handler of `version` sends for a request that binds:
      the product of the two int32 values as written, the exact product as
      intended. The two agree while the product fits in int32. */
  function Offset(version: Version, page: Int32, size: Int32): (offset: Int64)
    requires page >= 1 && 5 <= size <= 10
    ensures (page - 1) * size <= MaxInt32 ==> offset == (page - 1) * size
    ensures version.Intended? ==> offset == (page - 1) * size
    ensures version.AsWritten? ==> offset == PageOffsetAsWritten(page, size)
  {
    MulGap(0, page - 1, size);
    if version.Intended? then PageOffset(page, size)
    else if (page - 1) * size <= MaxInt32 then
      PageOffsetAgrees(page, size);
      PageOffsetAsWritten(page, size)
    else PageOffsetAsWritten(page, size)
  }

  /** `binding:"required,min=1"` on the page and `binding:"required,min=5,max=10"`
      on the size. */
  function PageViolations(q: PageReq): (errs: seq<FieldError>)
    ensures errs == [] <==> q.page >= 1 && 5 <= q.size <= 10
  {
    RequiredRange("Page", q.page, 1, None) + RequiredRange("Size", q.size, 5, Some(10))
  }

  /** The result of a list request: the parameters the query got, if it ran,
      and the response. */
  datatype ListOutcome = ListOutcome(query: Option<ListAccountParams>, response: Response<seq<Account>>)

  /** The shared part of both list handlers; `owner` is what the handler puts
      in the parameters. `list` is the store's ListAccount. */
  function ListPage(version: Version, owner: string, q: Result<PageReq, string>, list: ListAccountParams -> Result<seq<Account>, DbError>): (r: ListOutcome)
    ensures r.query.Some? <==> q.Success? && PageViolations(q.value) == []
    ensures r.query.Some? ==>
      && r.query.value.owner == owner && r.query.value.limit == q.value.size
      && r.query.value.offset == Offset(version, q.value.page, q.value.size)
      && var got := list(r.query.value);
      && (got.Success? ==> r.response == Response(StatusOK, Data(got.value)))
      && (got.Failure? ==> r.response.status == StatusInternalServerError)
    ensures r.query.None? ==> r.response.status == StatusBadRequest
  {
    if q.Failure? then ListOutcome(None, Response(StatusBadRequest, ErrorBody(q.error)))
    else
      var errs := PageViolations(q.value);
      if errs != [] then ListOutcome(None, Response(StatusBadRequest, ErrorBody(BindingMessage("getAccountsReq", errs))))
      else
        var args := ListAccountParams(owner, q.value.size, Offset(version, q.value.page, q.value.size));
        var got := list(args);
        if got.Failure? then ListOutcome(Some(args), Response(StatusInternalServerError, ErrorBody(ErrorText(got.error))))
        else ListOutcome(Some(args), Response(StatusOK, Data(got.value)))
  }

  /** GET /v1/accounts: a page of the authenticated user's accounts. */
  function GetAccounts(version: Version, username: string, q: Result<PageReq, string>, list: ListAccountParams -> Result<seq<Account>, DbError>): (r: ListOutcome)
    // the query runs exactly for a page that binds, scoped to the caller, one page of `size` rows
    ensures r.query.Some? <==> q.Success? && PageViolations(q.value) == []
    ensures r.query.Some? ==> r.query.value.owner == username && r.query.value.limit == q.value.size
    // 200 with the listed rows, 500 when the store fails, 400 when the page does not bind
    ensures r.query.Some? ==>
      var got := list(r.query.value);
      && (got.Success? ==> r.response == Response(StatusOK, Data(got.value)))
      && (got.Failure? ==> r.response.status == StatusInternalServerError)
    ensures r.query.None? ==> r.response.status == StatusBadRequest
    // as intended the page's first row is the exact number of rows before it
    ensures q.Success? && r.query.Some? && version.Intended? ==> r.query.value.offset == (q.value.page - 1) * q.value.size
    // as written a page whose first row lies beyond int32 gets a wrapped offset, never the exact one
    ensures q.Success? && r.query.Some? && version.AsWritten? && (q.value.page - 1) * q.value.size > MaxInt32 ==>
      r.query.value.offset != (q.value.page - 1) * q.value.size
  {
    ListPage(version, username, q, list)
  }

  /** The older list handler leaves the owner at Go's zero value, the empty
      string, whoever calls it; its offset is that of the REST handler. */
  function GetAccountsLegacy(version: Version, q: Result<PageReq, string>, list: ListAccountParams -> Result<seq<Account>, DbError>): (r: ListOutcome)
    ensures r.query.Some? ==> r.query.value.owner == ""
    ensures forall username :: r.query.Some? ==>
      GetAccounts(version, username, q, list).query == Some(r.query.value.(owner := username))
  {
    ListPage(version, "", q, list)
  }

  /** `a * s + s <= b * s` for `a < b` and a page size `s`; the case split
      makes each product linear. */
  lemma MulGap(a: int, b: int, s: int)
    requires 0 <= a <= b && 5 <= s <= 10
    ensures 0 <= a * s && (a < b ==> a * s + s <= b * s)
  {
    if s == 5 {
    } else if s == 6 {
    } else if s == 7 {
    } else if s == 8 {
    } else if s == 9 {
    } else {
    }
  }

  /** The first page starts at the first row. */
  lemma FirstPageAtStart(size: Int32)
    requires 5 <= size <= 10
    ensures PageOffset(1, size) == 0 && PageOffsetAsWritten(1, size) == 0
  {
  }

  /** Consecutive pages are adjacent windows: page p+1 starts where the
      `size` rows of page p end. */
  lemma ConsecutivePages(page: Int32, size: Int32)
    requires page >= 1 && page + 1 <= MaxInt32 && 5 <= size <= 10
    ensures PageOffset(page + 1, size) == PageOffset(page, size) + size
  {
    assert page * size == (page - 1) * size + size;
  }

  /** Distinct pages never overlap: the later page starts at or after the end
      of the earlier one. */
  lemma PagesDisjoint(p: Int32, q: Int32, size: Int32)
    requires 1 <= p < q && 5 <= size <= 10
    ensures PageOffset(p, size) + size <= PageOffset(q, size)
  {
    MulGap(p - 1, q - 1, size);
  }

  /** As written, the offset agrees with the intended one as long as the
      product fits in int32. */
  lemma PageOffsetAgrees(page: Int32, size: Int32)
    requires page >= 1 && 5 <= size <= 10
    requires (page - 1) * size <= MaxInt32
    ensures PageOffsetAsWritten(page, size) == PageOffset(page, size)
  {
    MulGap(0, page - 1, size);
  }

  /** As written the product is computed in int32: a large enough page that
      still binds wraps to a negative offset, which the intended computation
      does not. */
  lemma PageOffsetWraps()
    ensures PageViolations(PageReq(214748366, 10)) == []
    ensures PageOffsetAsWritten(214748366, 10) == -2147483646
    ensures PageOffset(214748366, 10) == 2147483650
  {
  }
}

=== FILE: auth.dfy ===
/** The two authorization-header parsers: the gin middleware
    `IsAuthenticated` of middlewares/auth.go and the gRPC `authorizeUser` of
    api/grpc_api/authorization.go. Both split the header into fields, compare
    the first field with "bearer" in lower case and hand the second field to
    the token verifier, which is a parameter here: given a token it yields
    the username it carries, or an error message. */
module Auth {
  import opened Wrappers
  import opened GoStrings
  import opened Http

  type Verifier = string -> Result<string, string>

  const FormatRequired := "Authorization header format required!"
  const InvalidFormat := "Invalid authorization header format!"
  const Unauthenticated := "User Unauthenticated!"

  /** What the middleware does with a request: abort it with a response, or
      pass it on with the authenticated username stored in the context. */
  datatype Gate = Abort(response: Response<()>) | Next(username: string)

  function Refuse(message: string): Gate {
    Abort(Response(StatusUnauthorized, Refusal(message)))
  }

  /** The scheme test shared by both parsers: the first field is "bearer" in
      any letter case. The middleware compares with the lower-cased "Bearer",
      which is the same word (`BearerSpellings`). */
  predicate IsBearer(scheme: string) {
    ToLower(scheme) == "bearer"
  }

  /** `IsAuthenticated`: the middleware run for the value of the
      Authorization header. */
  function IsAuthenticated(header: string, verify: Verifier): (r: Gate)
    // a request passes exactly when the header has a bearer scheme and a token the verifier accepts
    ensures var fs := Fields(header);
      r.Next? <==> |fs| >= 2 && IsBearer(fs[0]) && verify(fs[1]).Success?
    ensures r.Next? ==> r.username == verify(Fields(header)[1]).value
    // every refusal is a 401 with one of the three messages, chosen by the first check that fails
    ensures var fs := Fields(header);
      && (|fs| < 2 <==> r == Refuse(FormatRequired))
      && (|fs| >= 2 && !IsBearer(fs[0]) <==> r == Refuse(InvalidFormat))
      && (r == Refuse(Unauthenticated) ==> |fs| >= 2 && IsBearer(fs[0]) && verify(fs[1]).Failure?)
  {
    var fields := Fields(header);
    if |fields| < 2 then Refuse(FormatRequired)
    else if !IsBearer(fields[0]) then Refuse(InvalidFormat)
    else
      var token := fields[1];
      if token == "" then Refuse(Unauthenticated)
      else
        var v := verify(token);
        if v.Failure? then Refuse(Unauthenticated) else Next(v.value)
  }

  /** The empty-token check never decides: a field is never empty. */
  lemma TokenFieldNeverEmpty(header: string)
    requires |Fields(header)| >= 2
    ensures Fields(header)[1] != ""
  {
  }

  /** A Bearer header in any letter case, with any white space around and
      between the scheme and the token and anything after a further space,
      authenticates exactly as the verifier judges the token. */
  lemma BearerHeaderAuthenticates(pre: string, scheme: string, sep: string, token: string, post: string, verify: Verifier)
    requires AllSpace(pre) && IsField(scheme) && sep != [] && AllSpace(sep) && IsField(token)
    requires post == [] || IsSpace(post[0])
    requires IsBearer(scheme)
    ensures var r := IsAuthenticated(pre + (scheme + (sep + (token + post))), verify);
      && (verify(token).Success? ==> r == Next(verify(token).value))
      && (verify(token).Failure? ==> r == Refuse(Unauthenticated))
  {
    HeaderFields(pre, scheme, sep, token, post);
  }

  /** A header of white space only, or holding a single field, is refused
      for its format before the verifier is consulted. */
  lemma OneFieldIsFormatRequired(pre: string, w: string, post: string, verify: Verifier)
    requires AllSpace(pre) && IsField(w) && AllSpace(post)
    ensures IsAuthenticated(pre, verify) == Refuse(FormatRequired)
    ensures IsAuthenticated(pre + (w + post), verify) == Refuse(FormatRequired)
  {
    FieldsSkipsSpace(pre, []);
    assert pre + [] == pre;
    FieldsSkipsSpace(pre, w + post);
    if post == [] {
      FieldsCons(w, []);
      assert w + [] == w;
    } else {
      FieldsCons(w, post);
      FieldsSkipsSpace(post, []);
      assert post + [] == post;
    }
  }

  /** gRPC metadata: absent, or a map from lower-case keys to their values. */
  type Metadata = Option<map<string, seq<string>>>

  const AuthorizationKey := "authorization"

  /** `authorizeUser`: the username carried by the access token in the
      request metadata, or the error message. */
  function AuthorizeUser(md: Metadata, verify: Verifier): (r: Result<string, string>)
    ensures md.None? ==> r == Failure("missing metadata")
    ensures md.Some? && (AuthorizationKey !in md.value || md.value[AuthorizationKey] == []) ==>
      r == Failure("missing authorization header")
    // otherwise only the first value is read, and it passes exactly as the middleware would let it
    ensures md.Some? && AuthorizationKey in md.value && md.value[AuthorizationKey] != [] ==>
      var fs := Fields(md.value[AuthorizationKey][0]);
      && (r.Success? <==> |fs| >= 2 && IsBearer(fs[0]) && verify(fs[1]).Success?)
      && (r.Success? ==> r.value == verify(fs[1]).value)
      && (|fs| < 2 ==> r == Failure("invalid authorization header format"))
      && (|fs| >= 2 && !IsBearer(fs[0]) ==> r == Failure("unsupported authorization type: " + ToLower(fs[0])))
      && (|fs| >= 2 && IsBearer(fs[0]) && verify(fs[1]).Failure? ==>
            r == Failure("invalid access token: " + verify(fs[1]).error))
  {
    if md.None? then Failure("missing metadata")
    else
      var values := if AuthorizationKey in md.value then md.value[AuthorizationKey] else [];
      if |values| == 0 then Failure("missing authorization header")
      else
        var fields := Fields(values[0]);
        if |fields| < 2 then Failure("invalid authorization header format")
        else
          var authType := ToLower(fields[0]);
          if authType != "bearer" then Failure("unsupported authorization type: " + authType)
          else
            var v := verify(fields[1]);
            if v.Failure? then Failure("invalid access token: " + v.error) else Success(v.value)
  }

  /** Only the first authorization value counts: the ones after it never
      change the outcome. */
  lemma OnlyFirstValueCounts(m: map<string, seq<string>>, first: string, more: seq<string>, verify: Verifier)
    ensures AuthorizeUser(Some(m[AuthorizationKey := [first] + more]), verify)
         == AuthorizeUser(Some(m[AuthorizationKey := [first]]), verify)
  {
  }

  /** The two parsers agree: the middleware passes a header exactly when the
      gRPC check accepts it as the only authorization value, with the same
      username. */
  lemma ParsersAgree(header: string, m: map<string, seq<string>>, verify: Verifier)
    ensures var gate := IsAuthenticated(header, verify);
      var auth := AuthorizeUser(Some(m[AuthorizationKey := [header]]), verify);
      && (gate.Next? <==> auth.Success?)
      && (gate.Next? ==> gate.username == auth.value)
  {
  }
}

=== FILE: decimal.dfy ===
/** Decimal formatting of integers, as `fmt`'s `%d` writes them, and the
    parser that reads them back. */
module Decimal {
  import opened Wrappers

  predicate IsDigit(c: char) {
    '0' <= c <= '9'
  }

  function DigitChar(d: nat): (c: char)
    requires d < 10
    ensures IsDigit(c) && c as int - '0' as int == d
  {
    ('0' as int + d) as char
  }

  /** The digits of `n`, most significant first, without leading zeros. */
  function NatDigits(n: nat): (s: string)
    ensures s != [] && forall i :: 0 <= i < |s| ==> IsDigit(s[i])
    ensures |s| > 1 ==> s[0] != '0'
    decreases n
  {
    if n < 10 then [DigitChar(n)] else NatDigits(n / 10) + [DigitChar(n % 10)]
  }

  /** `%d`: a minus sign for negative numbers, then the digits. */
  function Itoa(n: int): (s: string)
    ensures s != [] && (s[0] == '-' <==> n < 0)
  {
    if n < 0 then "-" + NatDigits(-n) else NatDigits(n)
  }

  /** The value of a string of digits. */
  function DigitsValue(s: string): nat
    requires forall i :: 0 <= i < |s| ==> IsDigit(s[i])
  {
    if s == [] then 0
    else
      var last := s[|s| - 1];
      assert IsDigit(last);
      DigitsValue(s[..|s| - 1]) * 10 + (last as int - '0' as int)
  }

  /** Reads an optional minus sign followed by at least one digit. */
  function Atoi(s: string): (r: Option<int>)
    ensures r.Some? ==> s != []
  {
    if s != [] && s[0] == '-' then
      var t := s[1..];
      if t != [] && forall i :: 0 <= i < |t| ==> IsDigit(t[i]) then Some(-(DigitsValue(t) as int)) else None
    else if s != [] && forall i :: 0 <= i < |s| ==> IsDigit(s[i]) then Some(DigitsValue(s))
    else None
  }

  lemma {:induction false} DigitsValueOfNatDigits(n: nat)
    ensures DigitsValue(NatDigits(n)) == n
    decreases n
  {
    if n >= 10 {
      var s := NatDigits(n);
      DigitsValueOfNatDigits(n / 10);
      assert s[..|s| - 1] == NatDigits(n / 10);
    }
  }

  /** Round trip: reading back what `%d` wrote gives the number. */
  lemma AtoiItoa(n: int)
    ensures Atoi(Itoa(n)) == Some(n)
  {
    if n < 0 {
      DigitsValueOfNatDigits(-n);
      assert Itoa(n)[1..] == NatDigits(-n);
    } else {
      DigitsValueOfNatDigits(n);
    }
  }

  /** Different numbers are written differently. */
  lemma ItoaInjective(a: int, b: int)
    requires Itoa(a) == Itoa(b)
    ensures a == b
  {
    AtoiItoa(a);
    AtoiItoa(b);
  }
}

=== FILE: goint.dfy ===
/** Go's fixed-width integers. Dafny integers are unbounded, so the widths the
    source relies on are subset types and its wrap-around is written out. */
module GoInt {

  const MinInt64: int := -0x8000_0000_0000_0000
  const MaxInt64: int := 0x7fff_ffff_ffff_ffff
  const MinInt32: int := -0x8000_0000
  const MaxInt32: int := 0x7fff_ffff

  type Int64 = x: int | -0x8000_0000_0000_0000 <= x <= 0x7fff_ffff_ffff_ffff
  type Int32 = x: int | -0x8000_0000 <= x <= 0x7fff_ffff

  /** Two's-complement wrap of an arbitrary integer into int64. */
  function Wrap64(x: int): (r: Int64)
    ensures MinInt64 <= x <= MaxInt64 ==> r == x
    ensures (r - x) % 0x1_0000_0000_0000_0000 == 0
  {
    (x + 0x8000_0000_0000_0000) % 0x1_0000_0000_0000_0000 - 0x8000_0000_0000_0000
  }

  /** Two's-complement wrap of an arbitrary integer into int32. */
  function Wrap32(x: int): (r: Int32)
    ensures MinInt32 <= x <= MaxInt32 ==> r == x
    ensures (r - x) % 0x1_0000_0000 == 0
  {
    (x + 0x8000_0000) % 0x1_0000_0000 - 0x8000_0000
  }

  /** Go's unary minus on int64: exact except that it maps MinInt64 to itself. */
  function Neg64(x: Int64): (r: Int64)
    ensures x != MinInt64 ==> r == -x && r + x == 0
    ensures x == MinInt64 ==> r == x
  {
    if x == MinInt64 then x else -x
  }

  /** The case split of `Neg64` is two's-complement negation: the exact
      negation wrapped into int64. */
  lemma Neg64Wraps(x: Int64)
    ensures Neg64(x) == Wrap64(-(x as int))
  {
    if x == MinInt64 {
      assert Wrap64(-(x as int)) == MinInt64;
    }
  }

  /** Go's `*` on int32. */
  function Mul32(a: Int32, b: Int32): (r: Int32)
    ensures MinInt32 <= a * b <= MaxInt32 ==> r == a * b
  {
    Wrap32(a * b)
  }

  /** Go's `-` on int32. */
  function Sub32(a: Int32, b: Int32): (r: Int32)
    ensures MinInt32 <= a - b <= MaxInt32 ==> r == a - b
  {
    Wrap32(a - b)
  }

  /** Negating twice gives back the original value, MinInt64 included. */
  lemma NegNeg(x: Int64)
    ensures Neg64(Neg64(x)) == x
  {
  }
}

=== FILE: gostrings.dfy ===
/** Go's `strings.Fields` and `strings.ToLower`, as the two authorization
    header parsers use them: split around runs of white space, then compare
    the scheme in lower case. */
module GoStrings {

  /** Go's `unicode.IsSpace`: the ASCII spaces, NEL, NBSP and the Unicode
      space separators. */
  predicate IsSpace(c: char) {
    || c == '\t' || c == '\n' || c == '\U{000B}' || c == '\U{000C}' || c == '\r' || c == ' '
    || c == '\U{0085}' || c == '\U{00A0}' || c == '\U{1680}'
    || ('\U{2000}' <= c <= '\U{200A}')
    || c == '\U{2028}' || c == '\U{2029}' || c == '\U{202F}' || c == '\U{205F}' || c == '\U{3000}'
  }

  predicate NoSpace(s: string) {
    forall i :: 0 <= i < |s| ==> !IsSpace(s[i])
  }

  predicate AllSpace(s: string) {
    forall i :: 0 <= i < |s| ==> IsSpace(s[i])
  }

  /** A field: a non-empty run of non-space characters. */
  predicate IsField(w: string) {
    w != [] && NoSpace(w)
  }

  /** `s` without its leading white space. */
  function TrimLeft(s: string): (r: string)
    ensures |r| <= |s| && r == s[|s| - |r|..]
    ensures AllSpace(s[..|s| - |r|])
    ensures r != [] ==> !IsSpace(r[0])
  {
    if s != [] && IsSpace(s[0]) then TrimLeft(s[1..]) else s
  }

  /** The longest prefix of `s` without white space. */
  function Word(s: string): (w: string)
    ensures |w| <= |s| && w == s[..|w|] && NoSpace(w)
    ensures |w| < |s| ==> IsSpace(s[|w|])
    ensures s != [] && !IsSpace(s[0]) ==> w != []
  {
    if s == [] || IsSpace(s[0]) then [] else [s[0]] + Word(s[1..])
  }

  /** `strings.Fields`: the maximal runs of non-space characters, in order. */
  function Fields(s: string): (r: seq<string>)
    ensures forall i :: 0 <= i < |r| ==> IsField(r[i])
    decreases |s|
  {
    var t := TrimLeft(s);
    if t == [] then []
    else
      var w := Word(t);
      var rest := Fields(t[|w|..]);
      AllFieldsCons(w, rest);
      [w] + rest
  }

  lemma AllFieldsCons(w: string, rest: seq<string>)
    requires IsField(w) && forall i :: 0 <= i < |rest| ==> IsField(rest[i])
    ensures forall i :: 0 <= i < |[w] + rest| ==> IsField(([w] + rest)[i])
  {
  }

  /** The fields joined with one space between each two. */
  function Unwords(fs: seq<string>): string {
    if fs == [] then []
    else if |fs| == 1 then fs[0]
    else fs[0] + " " + Unwords(fs[1..])
  }

  /** ASCII lower-casing of one character; every other character is kept. */
  function LowerChar(c: char): (d: char)
    ensures 'A' <= c <= 'Z' ==> d as int == c as int + 32
    ensures !('A' <= c <= 'Z') ==> d == c
  {
    if 'A' <= c <= 'Z' then (c as int + 32) as char else c
  }

  /** `strings.ToLower` on ASCII letters. */
  function ToLower(s: string): (r: string)
    ensures |r| == |s|
    ensures forall i :: 0 <= i < |s| ==> r[i] == LowerChar(s[i])
  {
    if s == [] then [] else [LowerChar(s[0])] + ToLower(s[1..])
  }

  lemma HeadTail<T>(s: seq<T>)
    requires s != []
    ensures s == [s[0]] + s[1..]
  {
  }

  /** Leading white space never changes the fields. */
  lemma {:induction false} FieldsSkipsSpace(sp: string, s: string)
    requires AllSpace(sp)
    ensures Fields(sp + s) == Fields(s)
  {
    if sp != [] {
      assert (sp + s)[1..] == sp[1..] + s;
      FieldsSkipsSpace(sp[1..], s);
    } else {
      assert sp + s == s;
    }
  }

  /** A word followed by the end of the string or by white space is the
      first field. */
  lemma {:induction false} WordOfField(w: string, rest: string)
    requires IsField(w)
    requires rest == [] || IsSpace(rest[0])
    ensures Word(w + rest) == w
  {
    if |w| == 1 {
      assert (w + rest)[1..] == rest;
    } else {
      assert (w + rest)[1..] == w[1..] + rest;
      WordOfField(w[1..], rest);
      HeadTail(w);
    }
  }

  /** A field, then white space or nothing, then anything: the field comes
      first, and the fields of the rest follow. */
  lemma FieldsCons(w: string, rest: string)
    requires IsField(w)
    requires rest == [] || IsSpace(rest[0])
    ensures Fields(w + rest) == [w] + Fields(rest)
  {
    var s := w + rest;
    assert TrimLeft(s) == s;
    WordOfField(w, rest);
    assert s[|w|..] == rest;
  }

  /** Round trip: splitting the joined fields gives them back. */
  lemma {:induction false} FieldsUnwords(fs: seq<string>)
    requires forall i :: 0 <= i < |fs| ==> IsField(fs[i])
    ensures Fields(Unwords(fs)) == fs
  {
    if |fs| == 1 {
      FieldsOfField(fs[0]);
    } else if |fs| >= 2 {
      FieldsUnwords(fs[1..]);
      FieldsUnwordsStep(fs);
    }
  }

  /** A single field splits into itself. */
  lemma FieldsOfField(w: string)
    requires IsField(w)
    ensures Fields(w) == [w]
  {
    FieldsCons(w, []);
    assert w + [] == w;
  }

  lemma FieldsUnwordsStep(fs: seq<string>)
    requires |fs| >= 2 && IsField(fs[0])
    requires Fields(Unwords(fs[1..])) == fs[1..]
    ensures Fields(Unwords(fs)) == fs
  {
    var u := Unwords(fs[1..]);
    var rest := " " + u;
    assert Unwords(fs) == fs[0] + rest;
    FieldsCons(fs[0], rest);
    FieldsSkipsSpace(" ", u);
    HeadTail(fs);
  }

  /** Leading, trailing and repeated white space are ignored: a scheme and a
      token separated by any non-empty run of white space, surrounded by any
      white space and followed by anything after white space, are the first
      two fields. */
  lemma HeaderFields(pre: string, scheme: string, sep: string, token: string, post: string)
    requires AllSpace(pre) && IsField(scheme) && sep != [] && AllSpace(sep) && IsField(token)
    requires post == [] || IsSpace(post[0])
    ensures var fs := Fields(pre + (scheme + (sep + (token + post))));
      |fs| >= 2 && fs[0] == scheme && fs[1] == token
  {
    var tail := token + post;
    var y := sep + tail;
    assert y[0] == sep[0];
    FieldsSkipsSpace(pre, scheme + y);
    FieldsCons(scheme, y);
    FieldsSkipsSpace(sep, tail);
    FieldsCons(token, post);
  }

  /** Lower-casing is idempotent: the lower-cased scheme lower-cases to itself. */
  lemma ToLowerIdempotent(s: string)
    ensures ToLower(ToLower(s)) == ToLower(s)
  {
    assert forall i :: 0 <= i < |s| ==> LowerChar(LowerChar(s[i])) == LowerChar(s[i]);
  }

  /** Every spelling of the scheme that differs only in letter case lower-cases
      to "bearer". */
  lemma BearerSpellings()
    ensures ToLower("Bearer") == "bearer" && ToLower("BEARER") == "bearer" && ToLower("bEaReR") == "bearer"
    ensures ToLower("Basic") != "bearer"
  {
    assert ToLower("Basic")[0] == 'b' && ToLower("Basic")[1] == 'a';
  }
}

=== FILE: http.dfy ===
/** What the gin handlers write back: a status code and one of the JSON body
    shapes they use, the text of the errors they report, how they classify a
    failed lookup, and the request binding rules (`binding:"required,min=…"`). */
module Http {
  import opened Wrappers
  import opened Queries
  import opened TxTransfer

  const StatusOK := 200
  const StatusBadRequest := 400
  const StatusUnauthorized := 401
  const StatusNotFound := 404
  const StatusInternalServerError := 500

  /** The JSON bodies written by the handlers. */
  datatype Body<+T> =
    | ErrorBody(message: string)   // helpers.ErrorResponse: {"error": true, "message": …}
    | Refusal(error: string)       // {"success": false, "error": …}
    | Notice(message: string)      // {"success": false, "message": …}
    | Data(value: T)               // {"success": true, "data": …}

  datatype Response<+T> = Response(status: int, body: Body<T>)

  /** `err.Error()` of a store error. */
  function ErrorText(e: DbError): string {
    match e
    case NoRows(Pgx) => "no rows in result set"
    case NoRows(DatabaseSql) => "sql: no rows in result set"
    case OutOfRange => "ERROR: bigint out of range (SQLSTATE 22003)"
    case InFailedTx => "ERROR: current transaction is aborted, commands ignored until end of transaction block (SQLSTATE 25P02)"
    case CommitRolledBack => "commit unexpectedly resulted in rollback"
    case Driver(msg) => msg
  }

  /** `err.Error()` of an `execTx` error: the body's error alone, or both
      errors in the format "tx err: %v, rb err %v". */
  function TxErrorText(e: TxError): (s: string)
    ensures e.Plain? ==> s == ErrorText(e.err)
    ensures e.TxAndRollback? ==> s == "tx err: " + ErrorText(e.txErr) + ", rb err " + ErrorText(e.rbErr)
  {
    match e
    case Plain(err) => ErrorText(err)
    case TxAndRollback(txErr, rbErr) => "tx err: " + ErrorText(txErr) + ", rb err " + ErrorText(rbErr)
  }

  /** The status a handler gives a failed lookup as the code is written: 404
      only for `database/sql`'s sentinel, 500 for everything else. */
  function LookupStatusAsWritten(e: DbError): (status: int)
    ensures status == StatusNotFound <==> e == NoRows(DatabaseSql)
    ensures status != StatusNotFound ==> status == StatusInternalServerError
  {
    if e == NoRows(DatabaseSql) then StatusNotFound else StatusInternalServerError
  }

  /** The status a failed lookup is meant to get: 404 for "no rows" from
      whichever library, 500 for every other error. */
  function LookupStatus(e: DbError): (status: int)
    ensures status == StatusNotFound <==> e.NoRows?
    ensures status != StatusNotFound ==> status == StatusInternalServerError
  {
    if e.NoRows? then StatusNotFound else StatusInternalServerError
  }

  /** Which program a handler models: the code as written, or the code as
      evidently intended, where every "no rows" error is recognised, the
      page offset is exact and a failed session check ends the renewal. */
  datatype Version = AsWritten | Intended

  /** The status a handler of `version` gives a failed lookup. */
  function FailedLookupStatus(version: Version, e: DbError): (status: int)
    ensures version.AsWritten? ==> (status == StatusNotFound <==> e == NoRows(DatabaseSql))
    ensures version.Intended? ==> (status == StatusNotFound <==> e.NoRows?)
    ensures status != StatusNotFound ==> status == StatusInternalServerError
  {
    if version.AsWritten? then LookupStatusAsWritten(e) else LookupStatus(e)
  }

  /** The status a handler of `version` gives pgx's "no rows", the error of
      every lookup of a missing row: 500 as written, 404 as intended. */
  function MissingRowStatus(version: Version): (status: int)
    ensures status == FailedLookupStatus(version, NoRows(Pgx))
  {
    if version.AsWritten? then StatusInternalServerError else StatusNotFound
  }

  /** The store is the pgx driver, so a lookup never fails with
      `database/sql`'s sentinel: as written, no lookup error is ever a 404,
      while the intended classification gives 404 exactly for a missing row. */
  lemma StoreLookupNeverNotFoundAsWritten(db: Ledger.Db, id: GoInt.Int64, fault: Option<string>)
    requires GetAccount(db, id, fault).Failure?
    ensures LookupStatusAsWritten(GetAccount(db, id, fault).error) == StatusInternalServerError
    ensures LookupStatus(GetAccount(db, id, fault).error) == StatusNotFound <==> fault.None? && id !in db.accounts
  {
  }

  /** The two classifications part exactly on pgx's "no rows". */
  lemma LookupStatusesDiffer(e: DbError)
    ensures LookupStatus(e) != LookupStatusAsWritten(e) <==> e == NoRows(Pgx)
  {
    if e.NoRows? {
      assert e.origin == Pgx || e.origin == DatabaseSql;
    }
  }

  /** One failed binding rule: the struct field and the validator tag. */
  datatype FieldError = FieldError(field: string, tag: string)

  /** The validator's message for a list of failed rules, one line each, as
      "Key: '<struct>.<field>' Error:Field validation for '<field>' failed on
      the '<tag>' tag". */
  function BindingMessage(structName: string, errs: seq<FieldError>): (s: string)
    ensures errs == [] <==> s == []
  {
    if errs == [] then []
    else
      var e := errs[0];
      var line := "Key: '" + structName + "." + e.field + "' Error:Field validation for '"
        + e.field + "' failed on the '" + e.tag + "' tag";
      if |errs| == 1 then line else line + "\n" + BindingMessage(structName, errs[1..])
  }

  /** `binding:"required"` on a string: the empty string fails. */
  function RequiredText(field: string, v: string): (errs: seq<FieldError>)
    ensures errs == [] <==> v != []
    ensures errs != [] ==> errs == [FieldError(field, "required")]
  {
    if v == [] then [FieldError(field, "required")] else []
  }

  /** `binding:"required,min=lo"` (and `max=hi` when given) on an integer:
      the zero value fails "required", then the bounds are checked in order. */
  function RequiredRange(field: string, v: int, lo: int, hi: Option<int>): (errs: seq<FieldError>)
    ensures errs == [] <==> v != 0 && lo <= v && (hi.Some? ==> v <= hi.value)
    ensures |errs| <= 1 && (errs != [] ==> errs[0].field == field)
  {
    if v == 0 then [FieldError(field, "required")]
    else if v < lo then [FieldError(field, "min")]
    else if hi.Some? && v > hi.value then [FieldError(field, "max")]
    else []
  }

  /** `binding:"required,gt=0"` on an integer. */
  function RequiredPositive(field: string, v: int): (errs: seq<FieldError>)
    ensures errs == [] <==> v > 0
    ensures |errs| <= 1 && (errs != [] ==> errs[0].field == field)
  {
    if v == 0 then [FieldError(field, "required")]
    else if v < 0 then [FieldError(field, "gt")]
    else []
  }
}

=== FILE: ledger.dfy ===
/** The rows the ledger stores (db/sqlc/models.go) and the store as an
    immutable value. Creation timestamps are not modelled. */
module Ledger {
  import opened GoInt

  datatype Account = Account(id: Int64, owner: string, balance: Int64, currency: string)

  /** One signed balance movement; negative is a debit. */
  datatype Entry = Entry(id: nat, accountId: Int64, amount: Int64)

  datatype Transfer = Transfer(id: nat, fromAccountId: Int64, toAccountId: Int64, amount: Int64)

  /** Go's zero values, returned next to an error. */
  const NoAccount := Account(0, "", 0, "")

  /** The committed contents of the database. Entries and transfers are
      append-only and are numbered by position; account ids come from a
      counter that only grows. */
  datatype Db = Db(accounts: map<Int64, Account>, entries: seq<Entry>, transfers: seq<Transfer>, lastAccountId: nat)

  /** Every account is stored under its own id, and every id was handed out
      by the counter. */
  predicate Valid(db: Db) {
    forall id :: id in db.accounts ==> db.accounts[id].id == id && 1 <= id <= db.lastAccountId
  }

  /** `m'` is `m` with at most the balances of `ids` changed: no account is
      added or removed, no other field changes. */
  predicate BalancesOnly(m: map<Int64, Account>, m': map<Int64, Account>, ids: set<Int64>) {
    && m'.Keys == m.Keys
    && forall x {:trigger m'[x]} :: x in m ==> m'[x] == m[x].(balance := m'[x].balance) && (x !in ids ==> m'[x] == m[x])
  }

  lemma BalancesOnlyRefl(m: map<Int64, Account>, ids: set<Int64>)
    ensures BalancesOnly(m, m, ids)
  {
  }

  lemma BalancesOnlyTrans(m1: map<Int64, Account>, m2: map<Int64, Account>, m3: map<Int64, Account>, ids: set<Int64>)
    requires BalancesOnly(m1, m2, ids) && BalancesOnly(m2, m3, ids)
    ensures BalancesOnly(m1, m3, ids)
  {
  }

  /** Sum of the balances of the accounts whose ids are in `ks`. */
  ghost function SumBalances(m: map<Int64, Account>, ks: set<Int64>): int
    requires ks <= m.Keys
    decreases ks
  {
    if ks == {} then 0
    else
      var k :| k in ks;
      m[k].balance + SumBalances(m, ks - {k})
  }

  /** The money held by all accounts together. */
  ghost function Total(m: map<Int64, Account>): int {
    SumBalances(m, m.Keys)
  }

  /** The sum does not depend on which key the definition picks first. */
  lemma {:induction false} SumSplit(m: map<Int64, Account>, ks: set<Int64>, k: Int64)
    requires ks <= m.Keys && k in ks
    ensures SumBalances(m, ks) == m[k].balance + SumBalances(m, ks - {k})
    decreases ks
  {
    var j :| j in ks && SumBalances(m, ks) == m[j].balance + SumBalances(m, ks - {j});
    if j != k {
      SumSplit(m, ks - {j}, k);
      SumSplit(m, ks - {k}, j);
      assert ks - {j} - {k} == ks - {k} - {j};
    }
  }

  /** Maps that agree on the balances of `ks` have the same sum over `ks`. */
  lemma {:induction false} SumAgree(m: map<Int64, Account>, m': map<Int64, Account>, ks: set<Int64>)
    requires ks <= m.Keys && ks <= m'.Keys
    requires forall k :: k in ks ==> m[k].balance == m'[k].balance
    ensures SumBalances(m, ks) == SumBalances(m', ks)
    decreases ks
  {
    if ks != {} {
      var k :| k in ks && SumBalances(m, ks) == m[k].balance + SumBalances(m, ks - {k});
      SumSplit(m', ks, k);
      SumAgree(m, m', ks - {k});
    }
  }

  /** Replacing one account changes the total by exactly its balance change. */
  lemma TotalUpdate(m: map<Int64, Account>, id: Int64, a: Account)
    requires id in m
    ensures Total(m[id := a]) == Total(m) - m[id].balance + a.balance
  {
    var m' := m[id := a];
    assert m'.Keys == m.Keys;
    SumSplit(m, m.Keys, id);
    SumSplit(m', m.Keys, id);
    SumAgree(m, m', m.Keys - {id});
  }

  /** When only the balances of `a` and `b` change, the total changes by
      exactly their balance changes. */
  lemma TotalTwoChanged(m: map<Int64, Account>, m': map<Int64, Account>, a: Int64, b: Int64)
    requires a in m && b in m && BalancesOnly(m, m', {a, b})
    ensures Total(m') == Total(m) + (m'[a].balance - m[a].balance)
      + (if a == b then 0 else m'[b].balance - m[b].balance)
  {
    var ks := m.Keys;
    SumSplit(m, ks, a);
    SumSplit(m', ks, a);
    if a == b {
      SumAgree(m, m', ks - {a});
    } else {
      SumSplit(m, ks - {a}, b);
      SumSplit(m', ks - {a}, b);
      SumAgree(m, m', ks - {a} - {b});
    }
  }
}

=== FILE: queries.dfy ===
/** The single-statement queries the ledger store offers (the sqlc-generated
    `Queries` of db/sqlc), as pure functions over `Db`. The query text itself
    is not part of this model; each query is modelled from its generated name
    and parameter struct. Every query takes a `fault`: `Some(msg)` makes the
    driver fail with `msg` (connection lost, context cancelled, constraint
    violated), which is how error paths are stated. */
module Queries {
  import opened Wrappers
  import opened GoInt
  import opened Ledger

  /** Which library's "no rows" sentinel an error is. The pgx driver returns
      its own; `database/sql` has a different one. */
  datatype Library = Pgx | DatabaseSql

  datatype DbError =
    | NoRows(origin: Library)   // a `:one` query matched no row
    | OutOfRange                // bigint overflow in an UPDATE
    | InFailedTx                // statement sent after an earlier one failed in the same transaction
    | CommitRolledBack          // COMMIT of a failed transaction turned into a ROLLBACK
    | Driver(msg: string)       // any other failure

  /** Does this error leave a PostgreSQL transaction unusable? Every server-side
      error does; a `:one` query that found no row is reported by the driver
      alone and does not. */
  predicate AbortsTx(e: DbError) {
    !e.NoRows?
  }

  /** A statement issued inside a transaction, recorded in issue order. */
  datatype Stmt =
    | InsertTransfer(fromId: Int64, toId: Int64, amount: Int64)
    | InsertEntry(accountId: Int64, amount: Int64)
    | AddBalance(accountId: Int64, amount: Int64)

  /** An open transaction: the state it sees, whether an error has poisoned
      it, and the statements sent so far. */
  datatype Tx = Tx(db: Db, aborted: bool, log: seq<Stmt>)

  /** The result of one statement inside a transaction. */
  datatype Step<+T> = Step(tx: Tx, result: Result<T, DbError>)

  function Begin(db: Db): (tx: Tx)
    ensures tx.db == db && !tx.aborted && tx.log == []
  {
    Tx(db, false, [])
  }

  /** Sends `s`: an already failed transaction rejects it, an injected fault
      fails and poisons the transaction; otherwise `None` lets it run. */
  function Send(tx: Tx, s: Stmt, fault: Option<string>): (r: (Tx, Option<DbError>))
    ensures r.0.db == tx.db && r.0.log == tx.log + [s]
    ensures r.1.None? <==> !tx.aborted && fault.None?
    ensures r.1.None? ==> !r.0.aborted
    ensures r.1.Some? ==> r.0.aborted && AbortsTx(r.1.value)
  {
    var sent := tx.(log := tx.log + [s]);
    if tx.aborted then (sent, Some(InFailedTx))
    else if fault.Some? then (sent.(aborted := true), Some(Driver(fault.value)))
    else (sent, None)
  }

  /** CreateTransfer: appends one transfer row. */
  function CreateTransfer(tx: Tx, fromId: Int64, toId: Int64, amount: Int64, fault: Option<string>): (r: Step<Transfer>)
    ensures r.tx.log == tx.log + [InsertTransfer(fromId, toId, amount)]
    ensures r.result.Success? <==> !tx.aborted && fault.None?
    ensures r.result.Success? ==>
      && r.result.value == Transfer(|tx.db.transfers| + 1, fromId, toId, amount)
      && r.tx == tx.(db := tx.db.(transfers := tx.db.transfers + [r.result.value]), log := r.tx.log)
    ensures r.result.Failure? ==> r.tx.db == tx.db && r.tx.aborted
  {
    var (sent, err) := Send(tx, InsertTransfer(fromId, toId, amount), fault);
    if err.Some? then Step(sent, Failure(err.value))
    else
      var t := Transfer(|tx.db.transfers| + 1, fromId, toId, amount);
      Step(sent.(db := sent.db.(transfers := sent.db.transfers + [t])), Success(t))
  }

  /** CreateEntry: appends one entry row. */
  function CreateEntry(tx: Tx, accountId: Int64, amount: Int64, fault: Option<string>): (r: Step<Entry>)
    ensures r.tx.log == tx.log + [InsertEntry(accountId, amount)]
    ensures r.result.Success? <==> !tx.aborted && fault.None?
    ensures r.result.Success? ==>
      && r.result.value == Entry(|tx.db.entries| + 1, accountId, amount)
      && r.tx == tx.(db := tx.db.(entries := tx.db.entries + [r.result.value]), log := r.tx.log)
    ensures r.result.Failure? ==> r.tx.db == tx.db && r.tx.aborted
  {
    var (sent, err) := Send(tx, InsertEntry(accountId, amount), fault);
    if err.Some? then Step(sent, Failure(err.value))
    else
      var e := Entry(|tx.db.entries| + 1, accountId, amount);
      Step(sent.(db := sent.db.(entries := sent.db.entries + [e])), Success(e))
  }

  /** AddAccountBalance: adds a signed delta to one balance and returns the
      updated row. An id with no row yields the driver's no-rows error without
      poisoning the transaction; a sum outside int64 is a server error. */
  function AddAccountBalance(tx: Tx, id: Int64, amount: Int64, fault: Option<string>): (r: Step<Account>)
    ensures r.tx.log == tx.log + [AddBalance(id, amount)]
    ensures r.result.Success? <==>
      !tx.aborted && fault.None? && id in tx.db.accounts
      && MinInt64 <= tx.db.accounts[id].balance + amount <= MaxInt64
    ensures r.result.Success? ==>
      && r.result.value == tx.db.accounts[id].(balance := tx.db.accounts[id].balance + amount)
      && r.tx == tx.(db := tx.db.(accounts := tx.db.accounts[id := r.result.value]), log := r.tx.log)
    ensures r.result.Failure? ==> r.tx.db == tx.db
    ensures r.result.Failure? ==> (r.tx.aborted <==> AbortsTx(r.result.error))
    ensures r.result.Failure? && !tx.aborted && fault.None? && id !in tx.db.accounts ==>
      r.result.error == NoRows(Pgx) && !r.tx.aborted
  {
    var (sent, err) := Send(tx, AddBalance(id, amount), fault);
    if err.Some? then Step(sent, Failure(err.value))
    else if id !in tx.db.accounts then Step(sent, Failure(NoRows(Pgx)))
    else
      var a := tx.db.accounts[id];
      var sum := a.balance + amount;
      if sum < MinInt64 || MaxInt64 < sum then Step(sent.(aborted := true), Failure(OutOfRange))
      else
        var a' := a.(balance := sum);
        Step(sent.(db := sent.db.(accounts := sent.db.accounts[id := a'])), Success(a'))
  }

  /** GetAccount, run on its own outside any transaction. */
  function GetAccount(db: Db, id: Int64, fault: Option<string>): (r: Result<Account, DbError>)
    ensures r.Success? <==> fault.None? && id in db.accounts
    ensures r.Success? ==> r.value == db.accounts[id]
    ensures fault.None? && id !in db.accounts ==> r == Failure(NoRows(Pgx))
  {
    if fault.Some? then Failure(Driver(fault.value))
    else if id !in db.accounts then Failure(NoRows(Pgx))
    else Success(db.accounts[id])
  }

  datatype CreateAccountParams = CreateAccountParams(owner: string, balance: Int64, currency: string)

  /** CreateAccount: stores a new account under the next id of the counter. */
  function CreateAccount(db: Db, arg: CreateAccountParams, fault: Option<string>): (r: (Db, Result<Account, DbError>))
    requires Valid(db)
    ensures Valid(r.0)
    ensures r.1.Failure? ==> r.0 == db
    ensures r.1.Success? ==>
      && var a := r.1.value;
      && a.id !in db.accounts
      && a == Account(a.id, arg.owner, arg.balance, arg.currency)
      && r.0 == db.(accounts := db.accounts[a.id := a], lastAccountId := db.lastAccountId + 1)
  {
    if fault.Some? then (db, Failure(Driver(fault.value)))
    else if db.lastAccountId + 1 > MaxInt64 then (db, Failure(OutOfRange))
    else
      var id: Int64 := db.lastAccountId + 1;
      var a := Account(id, arg.owner, arg.balance, arg.currency);
      (db.(accounts := db.accounts[id := a], lastAccountId := id), Success(a))
  }
}

=== FILE: renew_token.dfy ===
/** `renewAccessToken` of api/rest_api/token.go: a refresh token is verified,
    its session looked up and checked, and a new access token issued. The
    token verifier, the session store, the token generator and the clock are
    parameters.

    gin keeps the status of the first response a handler writes and appends
    the bodies of later ones, so the handler's effect is the sequence of
    responses it writes: the client sees the first status and every body. */
module RenewToken {
  import opened Wrappers
  import opened Queries
  import opened Http

  datatype RenewReq = RenewReq(refreshToken: string)

  /** The stored session a refresh token belongs to. */
  datatype Session = Session(username: string, refreshToken: string, isBlocked: bool, expiresAt: int)

  /** A freshly generated access token and its expiry. */
  datatype AccessToken = AccessToken(token: string, expiresAt: int)

  /** The collaborators of the handler: the refresh-token verifier (the
      session id and username the token carries, or an error), the session
      lookup, the token generator for a username, and the current time. */
  datatype RenewEnv = RenewEnv(
    verify: string -> Result<(string, string), string>,
    getSession: string -> Result<Session, DbError>,
    generate: string -> Result<AccessToken, string>,
    now: int)

  type Written = seq<Response<AccessToken>>

  const SessionBlocked := "Session Blocked!"
  const IncorrectUser := "Incorrect session user!"
  const TokenMismatch := "Refresh token mismatch!"
  const ExpiredSession := "Expired session!"

  /** The session is expired when the current time is strictly after its
      expiry. */
  predicate Expired(s: Session, now: int) {
    now > s.expiresAt
  }

  /** A session is sound for a renewal when it is not blocked, belongs to the
      token's user, holds the presented refresh token and has not expired. */
  predicate Sound(s: Session, username: string, token: string, now: int) {
    !s.isBlocked && s.username == username && s.refreshToken == token && !Expired(s, now)
  }

  /** The messages of the session checks that fail, in the order the handler
      runs them. */
  function SessionProblems(s: Session, username: string, token: string, now: int): (p: seq<string>)
    ensures p == [] <==> Sound(s, username, token, now)
    ensures |p| <= 4
    ensures (SessionBlocked in p <==> s.isBlocked) && (IncorrectUser in p <==> s.username != username)
    ensures (TokenMismatch in p <==> s.refreshToken != token) && (ExpiredSession in p <==> Expired(s, now))
    ensures s.isBlocked ==> p[0] == SessionBlocked
  {
    (if s.isBlocked then [SessionBlocked] else [])
      + (if s.username != username then [IncorrectUser] else [])
      + (if s.refreshToken != token then [TokenMismatch] else [])
      + (if Expired(s, now) then [ExpiredSession] else [])
  }

  /** The checks that precede the session checks, and return as soon as one
      fails: binding, token verification and the session lookup, whose
      failure the handler of `version` classifies. On success, the session
      with the token's username. */
  function Prelude(version: Version, body: Result<RenewReq, string>, env: RenewEnv): (r: Result<(Session, string), Response<AccessToken>>)
    ensures r.Success? <==>
      && body.Success? && body.value.refreshToken != []
      && env.verify(body.value.refreshToken).Success?
      && env.getSession(env.verify(body.value.refreshToken).value.0).Success?
    ensures r.Success? ==>
      var v := env.verify(body.value.refreshToken).value;
      r.value == (env.getSession(v.0).value, v.1)
    ensures body.Failure? || body.value.refreshToken == [] ==> r.Failure? && r.error.status == StatusBadRequest
    ensures body.Success? && body.value.refreshToken != [] && env.verify(body.value.refreshToken).Failure? ==>
      r == Failure(Response(StatusUnauthorized, ErrorBody(env.verify(body.value.refreshToken).error)))
    // a failed session lookup is answered with its error, classified by the handler's version
    ensures (&& body.Success? && body.value.refreshToken != [] && env.verify(body.value.refreshToken).Success?
             && env.getSession(env.verify(body.value.refreshToken).value.0).Failure?) ==>
      var e := env.getSession(env.verify(body.value.refreshToken).value.0).error;
      r == Failure(Response(FailedLookupStatus(version, e), ErrorBody(ErrorText(e))))
    // so a session that does not exist: 500 as written, 404 as intended
    ensures (&& body.Success? && body.value.refreshToken != [] && env.verify(body.value.refreshToken).Success?
             && env.getSession(env.verify(body.value.refreshToken).value.0) == Failure(NoRows(Pgx))) ==>
      r == Failure(Response(MissingRowStatus(version), ErrorBody("no rows in result set")))
  {
    if body.Failure? then Failure(Response(StatusBadRequest, ErrorBody(body.error)))
    else
      var req := body.value;
      var errs := RequiredText("RefreshToken", req.refreshToken);
      if errs != [] then Failure(Response(StatusBadRequest, ErrorBody(BindingMessage("renewAccessTokenReq", errs))))
      else
        var v := env.verify(req.refreshToken);
        if v.Failure? then Failure(Response(StatusUnauthorized, ErrorBody(v.error)))
        else
          var s := env.getSession(v.value.0);
          if s.Failure? then Failure(Response(FailedLookupStatus(version, s.error), ErrorBody(ErrorText(s.error))))
          else Success((s.value, v.value.1))
  }

  /** The last response: the new token, or 500 when it cannot be generated. */
  function Issue(env: RenewEnv, username: string): (w: Response<AccessToken>)
    ensures w.body.Data? <==> env.generate(username).Success?
    ensures w.body.Data? ==> w == Response(StatusOK, Data(env.generate(username).value))
    ensures !w.body.Data? ==> w.status == StatusInternalServerError
  {
    var g := env.generate(username);
    if g.Failure? then Response(StatusInternalServerError, ErrorBody(g.error))
    else Response(StatusOK, Data(g.value))
  }

  /** Whether any written response carries a new access token. */
  predicate Issued(w: Written) {
    exists i :: 0 <= i < |w| && w[i].body.Data?
  }

  /** The handler as written: each failed session check writes a 401 but
      does not return, so the token is generated and written afterwards. */
  function RenewAccessTokenAsWritten(body: Result<RenewReq, string>, env: RenewEnv): (w: Written)
    ensures 1 <= |w| <= 5
    // a failed prelude writes its one response, so a missing session is 500
    ensures var pre := Prelude(AsWritten, body, env);
      pre.Failure? ==> w == [pre.error]
    // otherwise one 401 per failed session check, in order, then the token
    ensures var pre := Prelude(AsWritten, body, env);
      pre.Success? ==>
        w == Notices(SessionProblems(pre.value.0, pre.value.1, body.value.refreshToken, env.now)) + [Issue(env, pre.value.1)]
    // the last write is a new token whenever the request gets past the lookup, whatever the session checks found
    ensures var pre := Prelude(AsWritten, body, env);
      Issued(w) <==> pre.Success? && env.generate(pre.value.1).Success?
    // and yet the client sees 401 when any session check failed
    ensures var pre := Prelude(AsWritten, body, env);
      pre.Success? && !Sound(pre.value.0, pre.value.1, body.value.refreshToken, env.now) ==>
        w[0].status == StatusUnauthorized
  {
    var pre := Prelude(AsWritten, body, env);
    if pre.Failure? then [pre.error]
    else
      var (session, username) := pre.value;
      var notices := Notices(SessionProblems(session, username, body.value.refreshToken, env.now));
      var w := notices + [Issue(env, username)];
      assert w[|w| - 1].body.Data? <==> env.generate(username).Success?;
      w
  }

  /** One 401 notice per failed session check. */
  function Notices(problems: seq<string>): (w: Written)
    ensures |w| == |problems|
    ensures forall i :: 0 <= i < |w| ==> w[i] == Response(StatusUnauthorized, Notice(problems[i]))
  {
    if problems == [] then [] else [Response(StatusUnauthorized, Notice(problems[0]))] + Notices(problems[1..])
  }

  /** The handler as intended: the first failed session check ends it with
      its 401, so a token is issued only for a sound session. */
  function RenewAccessToken(body: Result<RenewReq, string>, env: RenewEnv): (w: Written)
    ensures |w| == 1
    ensures var pre := Prelude(Intended, body, env);
      Issued(w) <==>
        && pre.Success?
        && Sound(pre.value.0, pre.value.1, body.value.refreshToken, env.now)
        && env.generate(pre.value.1).Success?
    ensures w[0].status == StatusOK <==> Issued(w)
  {
    var pre := Prelude(Intended, body, env);
    if pre.Failure? then
      assert pre.error.status != StatusOK;
      [pre.error]
    else
      var (session, username) := pre.value;
      var problems := SessionProblems(session, username, body.value.refreshToken, env.now);
      if problems != [] then [Response(StatusUnauthorized, Notice(problems[0]))]
      else
        var w := [Issue(env, username)];
        assert Issued(w) <==> w[0].body.Data?;
        w
  }

  /** The preludes of both handlers pass and fail together and yield the
      same session; a failure writes the same body, and the same status
      unless the session lookup failed with pgx's "no rows". */
  lemma PreludeVersions(body: Result<RenewReq, string>, env: RenewEnv)
    ensures var written, intended := Prelude(AsWritten, body, env), Prelude(Intended, body, env);
      && (written.Success? <==> intended.Success?)
      && (written.Success? ==> written.value == intended.value)
      && (written.Failure? ==> written.error.body == intended.error.body)
    ensures var written, intended := Prelude(AsWritten, body, env), Prelude(Intended, body, env);
      written.Failure? && written.error.status != intended.error.status ==>
        env.getSession(env.verify(body.value.refreshToken).value.0) == Failure(NoRows(Pgx))
  {
    if body.Success? && body.value.refreshToken != [] && env.verify(body.value.refreshToken).Success? {
      var s := env.getSession(env.verify(body.value.refreshToken).value.0);
      if s.Failure? {
        LookupStatusesDiffer(s.error);
      }
    }
  }

  /** A refresh token whose session does not exist: the handler as written
      answers 500 with pgx's message, the intended one 404. */
  lemma MissingSessionStatus(body: Result<RenewReq, string>, env: RenewEnv)
    requires body.Success? && body.value.refreshToken != []
    requires env.verify(body.value.refreshToken).Success?
    requires env.getSession(env.verify(body.value.refreshToken).value.0) == Failure(NoRows(Pgx))
    ensures RenewAccessTokenAsWritten(body, env) == [Response(StatusInternalServerError, ErrorBody("no rows in result set"))]
    ensures RenewAccessToken(body, env) == [Response(StatusNotFound, ErrorBody("no rows in result set"))]
  {
  }

  /** Past the prelude the two handlers agree on a sound session; on an
      unsound one both start with the first failed check's 401, which is
      all the intended handler writes. */
  lemma RenewVersionsAgree(body: Result<RenewReq, string>, env: RenewEnv)
    ensures var pre := Prelude(Intended, body, env);
      pre.Success? && Sound(pre.value.0, pre.value.1, body.value.refreshToken, env.now) ==>
        RenewAccessTokenAsWritten(body, env) == RenewAccessToken(body, env)
    ensures var pre := Prelude(Intended, body, env);
      pre.Failure? ==>
        var written, fixed := RenewAccessTokenAsWritten(body, env), RenewAccessToken(body, env);
        |written| == 1 && written[0].body == fixed[0].body
    ensures var pre := Prelude(Intended, body, env);
      pre.Success? && !Sound(pre.value.0, pre.value.1, body.value.refreshToken, env.now) ==>
        var fixed := RenewAccessToken(body, env);
        && RenewAccessTokenAsWritten(body, env)[0] == fixed[0]
        && fixed[0].body == Notice(SessionProblems(pre.value.0, pre.value.1, body.value.refreshToken, env.now)[0])
  {
    PreludeVersions(body, env);
    var pre := Prelude(Intended, body, env);
    if pre.Success? {
      var (session, username) := pre.value;
      var problems := SessionProblems(session, username, body.value.refreshToken, env.now);
      if problems == [] {
        assert Notices(problems) == [];
        assert Notices(problems) + [Issue(env, username)] == [Issue(env, username)];
      }
    }
  }

  /** A concrete blocked session: as written the client receives 401
      "Session Blocked!" followed by a new access token; as intended, the
      401 alone. */
  lemma BlockedSessionStillIssued()
    ensures var env := RenewEnv(
        t => Success(("session-1", "alice")),
        id => Success(Session("alice", "refresh", true, 100)),
        u => Success(AccessToken("access", 200)),
        50);
      var w := RenewAccessTokenAsWritten(Success(RenewReq("refresh")), env);
      && w == [Response(StatusUnauthorized, Notice(SessionBlocked)), Response(StatusOK, Data(AccessToken("access", 200)))]
      && RenewAccessToken(Success(RenewReq("refresh")), env) == [Response(StatusUnauthorized, Notice(SessionBlocked))]
  {
    var env := RenewEnv(
        t => Success(("session-1", "alice")),
        id => Success(Session("alice", "refresh", true, 100)),
        u => Success(AccessToken("access", 200)),
        50);
    var body := Success(RenewReq("refresh"));
    assert Prelude(AsWritten, body, env) == Success((Session("alice", "refresh", true, 100), "alice"));
    assert SessionProblems(Session("alice", "refresh", true, 100), "alice", "refresh", 50) == [SessionBlocked];
    assert Notices([SessionBlocked]) == [Response(StatusUnauthorized, Notice(SessionBlocked))];
  }

  /** A session is still valid at the very instant of its expiry. */
  lemma ExpiryIsStrict(s: Session)
    ensures !Expired(s, s.expiresAt) && Expired(s, s.expiresAt + 1)
  {
  }
}

=== FILE: transfer_api.dfy ===
/** The transfer endpoints: `createTransfer` and `validAccount` of
    api/rest_api/transfer.go, which also require the caller to own the source
    account, and the older ones of api/transfer.go, which do not. Both admit a
    transfer only when the request binds, both accounts exist and both
    currencies equal the requested one. */
module TransferApi {
  import opened Wrappers
  import opened GoInt
  import opened Ledger
  import opened Queries
  import opened TxTransfer
  import opened Decimal
  import opened Http

  datatype TransferReq = TransferReq(fromAccountId: Int64, toAccountId: Int64, amount: Int64, currency: string)

  /** The binding rules of `transferReq`, checked field by field. */
  function TransferReqViolations(req: TransferReq): (errs: seq<FieldError>)
    ensures errs == [] <==>
      req.fromAccountId >= 1 && req.toAccountId >= 1 && req.amount > 0 && req.currency != []
  {
    RequiredRange("FromAccountId", req.fromAccountId, 1, None)
      + RequiredRange("ToAccountId", req.toAccountId, 1, None)
      + RequiredPositive("Amount", req.amount)
      + RequiredText("Currency", req.currency)
  }

  /** Faults of the two lookups and of the transfer transaction. */
  datatype TransferApiFaults = TransferApiFaults(fromLookup: Option<string>, toLookup: Option<string>, tx: TransferFaults)

  type TransferResponse = Response<TransferTxResult>

  /** What a request leaves behind: the store, the response, and the
      parameters `TransferTx` was called with, if it was. */
  datatype TransferOutcome = TransferOutcome(db: Db, response: TransferResponse, sent: Option<TransferTxParams>)

  const NotOwnerMessage := "Account does'nt belong to authenticated user!"

  function CurrencyMismatch(id: Int64, accountCurrency: string, currency: string): string {
    "account [" + Itoa(id) + "] currency mismatch: " + accountCurrency + " vs " + currency
  }

  /** `validAccount`: looks the account up and checks its currency; on a
      failure, the response the handler has written. */
  function ValidAccount(version: Version, db: Db, id: Int64, currency: string, fault: Option<string>): (r: Result<Account, TransferResponse>)
    ensures r.Success? <==> fault.None? && id in db.accounts && db.accounts[id].currency == currency
    ensures r.Success? ==> r.value == db.accounts[id]
    ensures fault.Some? ==> r == Failure(Response(StatusInternalServerError, ErrorBody(fault.value)))
    // a missing account is pgx's "no rows": 500 as written, 404 as intended
    ensures fault.None? && id !in db.accounts ==>
      r == Failure(Response(MissingRowStatus(version), ErrorBody("no rows in result set")))
    ensures fault.None? && id in db.accounts && db.accounts[id].currency != currency ==>
      r == Failure(Response(StatusBadRequest, ErrorBody(CurrencyMismatch(db.accounts[id].id, db.accounts[id].currency, currency))))
  {
    var got := GetAccount(db, id, fault);
    if got.Failure? then Failure(Response(FailedLookupStatus(version, got.error), ErrorBody(ErrorText(got.error))))
    else if got.value.currency != currency then
      Failure(Response(StatusBadRequest, ErrorBody(CurrencyMismatch(got.value.id, got.value.currency, currency))))
    else Success(got.value)
  }

  /** Whether account `id` can be found and is held in `currency`. */
  predicate Usable(db: Db, id: Int64, currency: string, fault: Option<string>) {
    fault.None? && id in db.accounts && db.accounts[id].currency == currency
  }

  /** The admission rule of the REST endpoint: the request binds, both
      accounts are usable and the caller owns the source. */
  predicate Admitted(db: Db, username: string, req: TransferReq, f: TransferApiFaults) {
    && req.fromAccountId >= 1 && req.toAccountId >= 1 && req.amount > 0 && req.currency != []
    && Usable(db, req.fromAccountId, req.currency, f.fromLookup)
    && db.accounts[req.fromAccountId].owner == username
    && Usable(db, req.toAccountId, req.currency, f.toLookup)
  }

  /** The call to `TransferTx` at the end of both handlers: 500 with the
      error, or 200 with the result and the committed store. */
  function RunTransfer(db: Db, req: TransferReq, f: TransferFaults): (r: TransferOutcome)
    ensures r.sent == Some(TransferTxParams(req.fromAccountId, req.toAccountId, req.amount))
    ensures var run := TransferTx(db, r.sent.value, f);
      && (run.result.Success? ==> r.db == run.db && r.response == Response(StatusOK, Data(run.result.value)))
      && (run.result.Failure? ==>
            r.db == db && r.response == Response(StatusInternalServerError, ErrorBody(TxErrorText(run.result.error))))
  {
    var args := TransferTxParams(req.fromAccountId, req.toAccountId, req.amount);
    var run := TransferTx(db, args, f);
    if run.result.Failure? then
      TransferOutcome(db, Response(StatusInternalServerError, ErrorBody(TxErrorText(run.result.error))), Some(args))
    else TransferOutcome(run.db, Response(StatusOK, Data(run.result.value)), Some(args))
  }

  /** POST /v1/transfer/add: `createTransfer` for the authenticated `username`.
      `body` is the decoded JSON, or the decoder's error message. */
  function CreateTransfer(version: Version, db: Db, username: string, body: Result<TransferReq, string>, f: TransferApiFaults): (r: TransferOutcome)
    // TransferTx runs exactly for admitted requests, with the request's ids and amount
    ensures r.sent.Some? <==> body.Success? && Admitted(db, username, body.value, f)
    ensures r.sent.Some? ==>
      r.sent.value == TransferTxParams(body.value.fromAccountId, body.value.toAccountId, body.value.amount)
    // a malformed request is refused with 400 before any lookup
    ensures body.Failure? || TransferReqViolations(body.value) != [] ==> r.response.status == StatusBadRequest
    // a missing source account is answered by its failed lookup
    ensures (&& body.Success? && TransferReqViolations(body.value) == []
             && f.fromLookup.None? && body.value.fromAccountId !in db.accounts) ==>
        r.response == Response(MissingRowStatus(version), ErrorBody("no rows in result set"))
    // an admitted transfer is answered and stored as the transaction ends: 200 and its commit, or 500 and no change
    ensures r.sent.Some? ==> r == RunTransfer(db, body.value, f.tx)
    // nothing but a committed transfer changes the store
    ensures r.db != db ==> r.sent.Some? && r.response.status == StatusOK
  {
    if body.Failure? then TransferOutcome(db, Response(StatusBadRequest, ErrorBody(body.error)), None)
    else
      var req := body.value;
      var errs := TransferReqViolations(req);
      if errs != [] then
        TransferOutcome(db, Response(StatusBadRequest, ErrorBody(BindingMessage("transferReq", errs))), None)
      else
        var from := ValidAccount(version, db, req.fromAccountId, req.currency, f.fromLookup);
        if from.Failure? then TransferOutcome(db, from.error, None)
        else if from.value.owner != username then
          TransferOutcome(db, Response(StatusUnauthorized, Refusal(NotOwnerMessage)), None)
        else
          var to := ValidAccount(version, db, req.toAccountId, req.currency, f.toLookup);
          if to.Failure? then TransferOutcome(db, to.error, None)
          else RunTransfer(db, req, f.tx)
  }

  /** The older `createTransfer` of api/transfer.go: the same checks without
      the ownership check. */
  function CreateTransferLegacy(version: Version, db: Db, body: Result<TransferReq, string>, f: TransferApiFaults): (r: TransferOutcome)
    // TransferTx runs exactly when the request binds and both accounts are usable, whoever owns them
    ensures r.sent.Some? <==>
      && body.Success? && TransferReqViolations(body.value) == []
      && Usable(db, body.value.fromAccountId, body.value.currency, f.fromLookup)
      && Usable(db, body.value.toAccountId, body.value.currency, f.toLookup)
    ensures r.sent.Some? ==>
      r.sent.value == TransferTxParams(body.value.fromAccountId, body.value.toAccountId, body.value.amount)
    ensures body.Failure? || TransferReqViolations(body.value) != [] ==> r.response.status == StatusBadRequest
    // a failed lookup answers for the first account that is not usable
    ensures body.Success? && TransferReqViolations(body.value) == [] ==>
      var from := ValidAccount(version, db, body.value.fromAccountId, body.value.currency, f.fromLookup);
      var to := ValidAccount(version, db, body.value.toAccountId, body.value.currency, f.toLookup);
      && (from.Failure? ==> r.response == from.error)
      && (from.Success? && to.Failure? ==> r.response == to.error)
    ensures r.sent.Some? ==> r == RunTransfer(db, body.value, f.tx)
    ensures r.db != db ==> r.sent.Some? && r.response.status == StatusOK
  {
    if body.Failure? then TransferOutcome(db, Response(StatusBadRequest, ErrorBody(body.error)), None)
    else
      var req := body.value;
      var errs := TransferReqViolations(req);
      if errs != [] then
        TransferOutcome(db, Response(StatusBadRequest, ErrorBody(BindingMessage("transferReq", errs))), None)
      else
        var from := ValidAccount(version, db, req.fromAccountId, req.currency, f.fromLookup);
        if from.Failure? then TransferOutcome(db, from.error, None)
        else
          var to := ValidAccount(version, db, req.toAccountId, req.currency, f.toLookup);
          if to.Failure? then TransferOutcome(db, to.error, None)
          else RunTransfer(db, req, f.tx)
  }

  /** The checks run in order (source lookup, ownership, destination lookup)
      and the first failure decides the response. */
  lemma CreateTransferCheckOrder(version: Version, db: Db, username: string, req: TransferReq, f: TransferApiFaults)
    requires TransferReqViolations(req) == []
    ensures var r := CreateTransfer(version, db, username, Success(req), f);
      var from := ValidAccount(version, db, req.fromAccountId, req.currency, f.fromLookup);
      && (from.Failure? ==> r.response == from.error)
      && (from.Success? && from.value.owner != username ==>
            r.response == Response(StatusUnauthorized, Refusal(NotOwnerMessage)))
      && (from.Success? && from.value.owner == username
          && ValidAccount(version, db, req.toAccountId, req.currency, f.toLookup).Failure? ==>
            r.response == ValidAccount(version, db, req.toAccountId, req.currency, f.toLookup).error)
  {
  }

  /** A missing source account, on either endpoint: as intended a 404; as
      written, with the pgx store, a 500 carrying pgx's "no rows" text. */
  lemma MissingSourceStatus(db: Db, username: string, req: TransferReq, f: TransferApiFaults)
    requires TransferReqViolations(req) == []
    requires f.fromLookup.None? && req.fromAccountId !in db.accounts
    ensures CreateTransfer(Intended, db, username, Success(req), f).response.status == StatusNotFound
    ensures CreateTransferLegacy(Intended, db, Success(req), f).response.status == StatusNotFound
    ensures CreateTransfer(AsWritten, db, username, Success(req), f).response
         == Response(StatusInternalServerError, ErrorBody("no rows in result set"))
    ensures CreateTransferLegacy(AsWritten, db, Success(req), f).response
         == Response(StatusInternalServerError, ErrorBody("no rows in result set"))
    ensures CreateTransfer(AsWritten, db, username, Success(req), f).sent.None?
  {
  }

  /** A transfer request with a malformed field is refused with 400 before
      any lookup. A transfer from an account to itself binds. */
  lemma BindingRules(req: TransferReq)
    ensures req.amount <= 0 ==> TransferReqViolations(req) != []
    ensures req.fromAccountId < 1 || req.toAccountId < 1 ==> TransferReqViolations(req) != []
    ensures req.fromAccountId == req.toAccountId && req.fromAccountId >= 1 && req.amount > 0 && req.currency != [] ==>
      TransferReqViolations(req) == []
  {
  }

  /** The older endpoint checks no ownership: for a caller who owns the
      source it behaves exactly like the REST one, and for any other caller
      it still runs a transfer the REST endpoint refuses with 401. */
  lemma LegacySkipsOwnership(version: Version, db: Db, username: string, req: TransferReq, f: TransferApiFaults)
    requires TransferReqViolations(req) == []
    ensures req.fromAccountId in db.accounts && db.accounts[req.fromAccountId].owner == username ==>
      CreateTransferLegacy(version, db, Success(req), f) == CreateTransfer(version, db, username, Success(req), f)
    ensures (&& Usable(db, req.fromAccountId, req.currency, f.fromLookup)
             && Usable(db, req.toAccountId, req.currency, f.toLookup)
             && db.accounts[req.fromAccountId].owner != username) ==>
        && CreateTransferLegacy(version, db, Success(req), f).sent.Some?
        && CreateTransfer(version, db, username, Success(req), f).response == Response(StatusUnauthorized, Refusal(NotOwnerMessage))
  {
  }

  /** The currency mismatch message names the account id, which can be read
      back from it. */
  lemma MismatchMessageNamesAccount(id: Int64, have: string, want: string)
    ensures var m := CurrencyMismatch(id, have, want);
      var digits := Itoa(id);
      && m[..9] == "account ["
      && m[9..9 + |digits|] == digits
      && Atoi(m[9..9 + |digits|]) == Some(id as int)
  {
    AtoiItoa(id);
  }
}

=== FILE: transfer_props.dfy ===
/** Properties of the transfer transaction of db/sqlc/tx_transfer.go:
    atomicity, the effect on balances, the lock order, and the behaviours the
    code has because it drops the balance updates' errors and never checks
    the amount or the two ids. */
module TransferProps {
  import opened Wrappers
  import opened GoInt
  import opened Ledger
  import opened Queries
  import opened TxTransfer

  const NoTxFaults := TxFaults(None, None, None)
  const NoFaults := TransferFaults(NoTxFaults, None, None, None, None, None)

  /** The three ways a usable transaction can come out of the ordered
      balance updates, by which of the two ids have rows. */
  lemma OrderedAddMoneyBalances(arg: TransferTxParams, f: TransferFaults, tx: Tx)
    requires !tx.aborted && !OrderedAddMoney(arg, f, tx).0.aborted
    ensures var m, m' := tx.db.accounts, OrderedAddMoney(arg, f, tx).0.db.accounts;
      var lo, hi := Min(arg.fromAccountId, arg.toAccountId), Max(arg.fromAccountId, arg.toAccountId);
      && (lo !in m ==> m' == m)
      && (lo in m && hi !in m ==>
            BalancesOnly(m, m', {lo}) && m'[lo].balance == m[lo].balance + Delta(arg, lo))
      && (lo in m && hi in m ==>
            forall x :: x in m ==> m'[x].balance == m[x].balance + Delta(arg, x))
  {
    var from, to, a := arg.fromAccountId, arg.toAccountId, arg.amount;
    if from < to {
      if from !in tx.db.accounts {
        AddMoneyFirstMissing(tx, a, from, to, f.firstUpdate, f.secondUpdate);
      } else if to !in tx.db.accounts {
        AddMoneySecondMissing(tx, a, from, to, f.firstUpdate, f.secondUpdate);
      } else {
        AddMoneyBoth(tx, a, from, to, f.firstUpdate, f.secondUpdate);
      }
    } else {
      NegNeg(a);
      if to !in tx.db.accounts {
        AddMoneyFirstMissing(tx, Neg64(a), to, from, f.firstUpdate, f.secondUpdate);
      } else if from !in tx.db.accounts {
        AddMoneySecondMissing(tx, Neg64(a), to, from, f.firstUpdate, f.secondUpdate);
      } else {
        AddMoneyBoth(tx, Neg64(a), to, from, f.firstUpdate, f.secondUpdate);
      }
    }
  }

  /** The same three cases for a whole committed transfer. */
  lemma CommittedBalances(db: Db, arg: TransferTxParams, f: TransferFaults)
    requires TransferTx(db, arg, f).result.Success?
    ensures var m, m' := db.accounts, TransferTx(db, arg, f).db.accounts;
      var lo, hi := Min(arg.fromAccountId, arg.toAccountId), Max(arg.fromAccountId, arg.toAccountId);
      && (lo !in m ==> m' == m)
      && (lo in m && hi !in m ==>
            BalancesOnly(m, m', {lo}) && m'[lo].balance == m[lo].balance + Delta(arg, lo))
      && (lo in m && hi in m ==>
            forall x :: x in m ==> m'[x].balance == m[x].balance + Delta(arg, x))
  {
    TransferTxRunsBody(db, arg, f);
    var ins := InsertRows(arg, f, Begin(db));
    assert ins.result.Success?;
    assert TransferBody(arg, f, Begin(db)).tx == OrderedAddMoney(arg, f, ins.tx).0;
    OrderedAddMoneyBalances(arg, f, ins.tx);
  }

  /** A committed transfer between two existing accounts moves exactly
      `amount` from the source to the destination and touches nothing else. */
  lemma TransferTxMovesMoney(db: Db, arg: TransferTxParams, f: TransferFaults)
    requires TransferTx(db, arg, f).result.Success?
    requires arg.fromAccountId in db.accounts && arg.toAccountId in db.accounts
    ensures var m, m' := db.accounts, TransferTx(db, arg, f).db.accounts;
      && m'.Keys == m.Keys
      && (forall x :: x in m ==> m'[x].balance == m[x].balance + Delta(arg, x))
      && (arg.fromAccountId != arg.toAccountId ==>
            && m'[arg.fromAccountId].balance == m[arg.fromAccountId].balance + Neg64(arg.amount)
            && m'[arg.toAccountId].balance == m[arg.toAccountId].balance + arg.amount)
  {
    CommittedBalances(db, arg, f);
  }

  /** Money is conserved by a committed transfer between existing accounts:
      the total changes by `-amount + amount`, which is zero for every amount
      except MinInt64, whose negation wraps to itself. */
  lemma TransferTxConservesTotal(db: Db, arg: TransferTxParams, f: TransferFaults)
    requires TransferTx(db, arg, f).result.Success?
    requires arg.fromAccountId in db.accounts && arg.toAccountId in db.accounts
    ensures Total(TransferTx(db, arg, f).db.accounts) == Total(db.accounts) + Neg64(arg.amount) + arg.amount
    ensures arg.amount != MinInt64 ==> Total(TransferTx(db, arg, f).db.accounts) == Total(db.accounts)
  {
    TransferTxMovesMoney(db, arg, f);
    TransferTxAccounts(db, arg, f);
    TotalTwoChanged(db.accounts, TransferTx(db, arg, f).db.accounts, arg.fromAccountId, arg.toAccountId);
  }

  /** A transfer from an account to itself, which nothing rejects, leaves
      every account as it was when it commits. */
  lemma SelfTransferLeavesAccounts(db: Db, arg: TransferTxParams, f: TransferFaults)
    requires arg.fromAccountId == arg.toAccountId
    requires TransferTx(db, arg, f).result.Success?
    ensures TransferTx(db, arg, f).db.accounts == db.accounts
  {
    var id := arg.fromAccountId;
    var m, m' := db.accounts, TransferTx(db, arg, f).db.accounts;
    CommittedBalances(db, arg, f);
    if id in m {
      assert m'[id].balance == m[id].balance + Neg64(arg.amount) + arg.amount;
      assert m'[id] == m[id];
      assert forall x :: x in m ==> m'[x] == m[x];
    }
  }

  /** The balance updates' errors are dropped: when the lower id has no row,
      its update fails with "no rows", the second update is never sent, and
      the transfer row and both entries still commit with no balance changed. */
  lemma DroppedUpdateErrorCommits(db: Db, arg: TransferTxParams)
    requires Min(arg.fromAccountId, arg.toAccountId) !in db.accounts
    ensures var r := TransferTx(db, arg, NoFaults);
      && r.result.Success?
      && r.db.accounts == db.accounts
      && |r.db.transfers| == |db.transfers| + 1 && |r.db.entries| == |db.entries| + 2
      && UpdatedIds(r.log) == [Min(arg.fromAccountId, arg.toAccountId)]
  {
    var f := NoFaults;
    TransferTxRunsBody(db, arg, f);
    var ins := InsertRows(arg, f, Begin(db));
    assert ins.result.Success? && !ins.tx.aborted;
    var from, to, a := arg.fromAccountId, arg.toAccountId, arg.amount;
    var out := OrderedAddMoney(arg, f, ins.tx);
    if from < to {
      var s1 := AddAccountBalance(ins.tx, from, Neg64(a), None);
      assert s1.result.Failure? && !s1.tx.aborted;
      assert out.0 == s1.tx;
    } else {
      var s1 := AddAccountBalance(ins.tx, to, Neg64(Neg64(a)), None);
      assert s1.result.Failure? && !s1.tx.aborted;
      assert out.0 == s1.tx;
    }
    assert TransferBody(arg, f, Begin(db)).tx == out.0;
    var r := TransferTx(db, arg, f);
    assert r.result.Success?;
    OrderedAddMoneyBalances(arg, f, ins.tx);
    assert |r.log| == 4;
    LockOrder(db, arg, f);
  }

  /** A statement log without balance updates names no updated account. */
  lemma {:induction false} NoUpdatesIn(s: seq<Stmt>)
    requires forall i :: 0 <= i < |s| ==> !s[i].AddBalance?
    ensures UpdatedIds(s) == []
  {
    if s != [] {
      NoUpdatesIn(s[1..]);
    }
  }

  /** The balance updates in any prefix of the transfer script: a prefix of
      [lower id, higher id], one per statement past the three inserts. */
  lemma ScriptUpdatedIds(arg: TransferTxParams, log: seq<Stmt>)
    requires |log| <= 3 ==> log == Inserts(arg)[..|log|]
    requires |log| > 3 ==> |log| <= 5 && log == Inserts(arg) + Updates(arg)[..|log| - 3]
    ensures var ids := UpdatedIds(log);
      && |ids| == (if |log| <= 3 then 0 else |log| - 3)
      && ids == [Min(arg.fromAccountId, arg.toAccountId), Max(arg.fromAccountId, arg.toAccountId)][..|ids|]
  {
    if |log| <= 3 {
      NoUpdatesIn(log);
    } else {
      var k := |log| - 3;
      NoUpdatesIn(Inserts(arg));
      UpdatedIdsAppend(Inserts(arg), Updates(arg)[..k]);
      UpdatesIds(arg, k);
    }
  }

  /** The first `k` balance updates touch the first `k` of [lower id, higher id]. */
  lemma UpdatesIds(arg: TransferTxParams, k: nat)
    requires k <= 2
    ensures UpdatedIds(Updates(arg)[..k]) == [Min(arg.fromAccountId, arg.toAccountId), Max(arg.fromAccountId, arg.toAccountId)][..k]
  {
    var ups := Updates(arg)[..k];
    if k == 1 {
      assert ups[1..] == [];
    } else if k == 2 {
      assert ups[1..][1..] == [];
    }
  }

  /** Lock order: whatever happens, the balance updates a transfer sends are
      a prefix of [lower id, higher id]. Two transfers between the same pair
      of accounts, in either direction, therefore take the row locks in the
      same order. */
  lemma LockOrder(db: Db, arg: TransferTxParams, f: TransferFaults)
    ensures var log := TransferTx(db, arg, f).log;
      var ids := UpdatedIds(log);
      && |ids| == (if |log| <= 3 then 0 else |log| - 3)
      && ids == [Min(arg.fromAccountId, arg.toAccountId), Max(arg.fromAccountId, arg.toAccountId)][..|ids|]
  {
    TransferTxLog(db, arg, f);
    ScriptUpdatedIds(arg, TransferTx(db, arg, f).log);
  }

  /** A transfer whose inserts fail rolls back: nothing is written, no balance
      update is sent, and the first failing insert's error is returned,
      joined with the rollback's when that fails too. */
  lemma FailedInsertRollsBack(db: Db, arg: TransferTxParams, f: TransferFaults)
    requires f.tx.begin.None?
    requires f.createTransfer.Some? || f.fromEntry.Some? || f.toEntry.Some?
    ensures var r := TransferTx(db, arg, f);
      var e := if f.createTransfer.Some? then Driver(f.createTransfer.value)
               else if f.fromEntry.Some? then Driver(f.fromEntry.value)
               else Driver(f.toEntry.value);
      && r.db == db
      && r.result == Failure(if f.tx.rollback.Some? then TxAndRollback(e, Driver(f.tx.rollback.value)) else Plain(e))
      && UpdatedIds(r.log) == []
  {
    TransferTxRunsBody(db, arg, f);
    var ins := InsertRows(arg, f, Begin(db));
    assert TransferBody(arg, f, Begin(db)) == Step(ins.tx, Failure(ins.result.error));
    TransferBodyLog(arg, f, Begin(db));
    LockOrder(db, arg, f);
  }

  /** The two entries of a committed transfer cancel out, except for the
      amount MinInt64, whose negation wraps to itself. */
  lemma EntriesCancel(db: Db, arg: TransferTxParams, f: TransferFaults)
    requires TransferTx(db, arg, f).result.Success?
    ensures var v := TransferTx(db, arg, f).result.value;
      v.fromEntry.amount + v.toEntry.amount == 0 <==> arg.amount != MinInt64
  {
    TransferTxWritesRows(db, arg, f);
  }

  /** A transfer keeps every account under its own id and creates no id. */
  lemma TransferTxPreservesValid(db: Db, arg: TransferTxParams, f: TransferFaults)
    requires Valid(db)
    ensures Valid(TransferTx(db, arg, f).db)
  {
    TransferTxAccounts(db, arg, f);
  }

  /** Without injected faults the only way a transfer fails is a balance
      update that overflows: it poisons the transaction and PostgreSQL turns
      the COMMIT into a rollback. */
  lemma UnfaultedFailureIsRolledBackCommit(db: Db, arg: TransferTxParams)
    ensures var r := TransferTx(db, arg, NoFaults);
      r.result.Failure? ==> r.result == Failure(Plain(CommitRolledBack))
  {
    TransferTxRunsBody(db, arg, NoFaults);
  }

  /** The first update of `addMoney` with no fault and a balance that stays in
      range succeeds and leaves the transaction usable. */
  lemma UpdateSucceeds(tx: Tx, id: Int64, amount: Int64)
    requires !tx.aborted && id in tx.db.accounts
    requires MinInt64 <= tx.db.accounts[id].balance + amount <= MaxInt64
    ensures var s := AddAccountBalance(tx, id, amount, None);
      s.result.Success? && !s.tx.aborted
      && s.tx.db.accounts == tx.db.accounts[id := tx.db.accounts[id].(balance := tx.db.accounts[id].balance + amount)]
  {
  }

  /** A transfer between two different existing accounts, with no fault and
      no overflow, commits, and returns the two rows as they were committed. */
  lemma HappyPath(db: Db, arg: TransferTxParams)
    requires arg.fromAccountId != arg.toAccountId
    requires arg.fromAccountId in db.accounts && arg.toAccountId in db.accounts
    requires MinInt64 <= db.accounts[arg.fromAccountId].balance + Neg64(arg.amount) <= MaxInt64
    requires MinInt64 <= db.accounts[arg.toAccountId].balance + arg.amount <= MaxInt64
    ensures var r := TransferTx(db, arg, NoFaults);
      && r.result.Success?
      && r.result.value.fromAccount == r.db.accounts[arg.fromAccountId]
      && r.result.value.toAccount == r.db.accounts[arg.toAccountId]
  {
    var f := NoFaults;
    var from, to, a := arg.fromAccountId, arg.toAccountId, arg.amount;
    TransferTxRunsBody(db, arg, f);
    var ins := InsertRows(arg, f, Begin(db));
    assert ins.result.Success? && !ins.tx.aborted && ins.tx.db.accounts == db.accounts;
    var out := OrderedAddMoney(arg, f, ins.tx);
    if from < to {
      UpdateSucceeds(ins.tx, from, Neg64(a));
      var s1 := AddAccountBalance(ins.tx, from, Neg64(a), None);
      UpdateSucceeds(s1.tx, to, a);
      var s2 := AddAccountBalance(s1.tx, to, a, None);
      assert out == (s2.tx, s1.result.value, s2.result.value);
    } else {
      NegNeg(a);
      UpdateSucceeds(ins.tx, to, a);
      var s1 := AddAccountBalance(ins.tx, to, Neg64(Neg64(a)), None);
      UpdateSucceeds(s1.tx, from, Neg64(a));
      var s2 := AddAccountBalance(s1.tx, from, Neg64(a), None);
      assert out == (s2.tx, s2.result.value, s1.result.value);
    }
    assert TransferBody(arg, f, Begin(db)).tx == out.0;
  }

  /** When only the lower id has a row, the transfer still commits, but only
      that side's balance moves: the total changes by that side's delta, so
      money disappears (the source exists) or appears (the destination
      exists). */
  lemma MissingHigherAccountCommits(db: Db, arg: TransferTxParams)
    requires Min(arg.fromAccountId, arg.toAccountId) in db.accounts
    requires Max(arg.fromAccountId, arg.toAccountId) !in db.accounts
    requires var lo := Min(arg.fromAccountId, arg.toAccountId);
      MinInt64 <= db.accounts[lo].balance + Delta(arg, lo) <= MaxInt64
    ensures var r := TransferTx(db, arg, NoFaults);
      var lo := Min(arg.fromAccountId, arg.toAccountId);
      && r.result.Success?
      && BalancesOnly(db.accounts, r.db.accounts, {lo})
      && r.db.accounts[lo].balance == db.accounts[lo].balance + Delta(arg, lo)
      && Total(r.db.accounts) == Total(db.accounts) + Delta(arg, lo)
  {
    var f := NoFaults;
    var from, to, a := arg.fromAccountId, arg.toAccountId, arg.amount;
    var lo := Min(from, to);
    TransferTxRunsBody(db, arg, f);
    var ins := InsertRows(arg, f, Begin(db));
    assert ins.result.Success? && !ins.tx.aborted && ins.tx.db.accounts == db.accounts;
    var out := OrderedAddMoney(arg, f, ins.tx);
    if from < to {
      UpdateSucceeds(ins.tx, from, Neg64(a));
      var s1 := AddAccountBalance(ins.tx, from, Neg64(a), None);
      var s2 := AddAccountBalance(s1.tx, to, a, None);
      assert !s2.tx.aborted;
      assert out.0 == s2.tx;
    } else {
      NegNeg(a);
      UpdateSucceeds(ins.tx, to, a);
      var s1 := AddAccountBalance(ins.tx, to, Neg64(Neg64(a)), None);
      var s2 := AddAccountBalance(s1.tx, from, Neg64(a), None);
      assert !s2.tx.aborted;
      assert out.0 == s2.tx;
    }
    assert TransferBody(arg, f, Begin(db)).tx == out.0;
    CommittedBalances(db, arg, f);
    TotalTwoChanged(db.accounts, TransferTx(db, arg, f).db.accounts, lo, lo);
  }

  const Alice := Account(1, "alice", 500, "USD")
  const Bob := Account(2, "bob", 200, "USD")

  /** Transferring 150 from account 1 (balance 500) to account 2 (balance
      200) leaves both at 350 and writes transfer 1 and entries -150/+150. */
  lemma TransferExample()
    ensures var db := Db(map[1 := Alice, 2 := Bob], [], [], 2);
      var r := TransferTx(db, TransferTxParams(1, 2, 150), NoFaults);
      && r.result.Success?
      && r.db.accounts == map[1 := Alice.(balance := 350), 2 := Bob.(balance := 350)]
      && r.result.value.transfer == Transfer(1, 1, 2, 150)
      && r.result.value.fromEntry == Entry(1, 1, -150)
      && r.result.value.toEntry == Entry(2, 2, 150)
      && r.result.value.fromAccount.balance == 350 && r.result.value.toAccount.balance == 350
  {
    var db := Db(map[1 := Alice, 2 := Bob], [], [], 2);
    var arg := TransferTxParams(1, 2, 150);
    HappyPath(db, arg);
    TransferTxMovesMoney(db, arg, NoFaults);
    TransferTxWritesRows(db, arg, NoFaults);
    var m' := TransferTx(db, arg, NoFaults).db.accounts;
    TransferTxAccounts(db, arg, NoFaults);
    assert m' == map[1 := Alice.(balance := 350), 2 := Bob.(balance := 350)];
  }

  /** Sending 10 from account 1 (balance 100) to an account 2 that does not
      exist commits: account 1 is debited and the 10 vanish from the ledger. */
  lemma LostCreditExample()
    ensures var db := Db(map[1 := Account(1, "alice", 100, "USD")], [], [], 1);
      var r := TransferTx(db, TransferTxParams(1, 2, 10), NoFaults);
      && r.result.Success?
      && r.db.accounts == map[1 := Account(1, "alice", 90, "USD")]
      && Total(r.db.accounts) == Total(db.accounts) - 10
  {
    var db := Db(map[1 := Account(1, "alice", 100, "USD")], [], [], 1);
    var arg := TransferTxParams(1, 2, 10);
    MissingHigherAccountCommits(db, arg);
  }
}

=== FILE: tx_transfer.dfy ===
/** The transfer transaction of db/sqlc/tx_transfer.go: `execTx`, the
    all-or-nothing wrapper, and `TransferTx`/`addMoney`, which write one
    transfer, two entries and two balance updates, lower account id first. */
module TxTransfer {
  import opened Wrappers
  import opened GoInt
  import opened Ledger
  import opened Queries

  /** Faults of the transaction itself: BEGIN, ROLLBACK and COMMIT. */
  datatype TxFaults = TxFaults(begin: Option<string>, rollback: Option<string>, commit: Option<string>)

  /** `execTx`'s error: the body's error alone, or the body's error together
      with the rollback's (Go formats it as "tx err: …, rb err …"). */
  datatype TxError = Plain(err: DbError) | TxAndRollback(txErr: DbError, rbErr: DbError)

  /** What a transaction leaves behind: the committed state, its outcome, and
      every statement it sent (kept even when they were rolled back). */
  datatype TxRun<+T> = TxRun(db: Db, result: Result<T, TxError>, log: seq<Stmt>)

  /** `execTx`: begin, run the body, roll back on error, otherwise commit. */
  function ExecTx<T>(db: Db, f: TxFaults, body: Tx -> Step<T>): (r: TxRun<T>)
    // a failed BEGIN returns its error and runs nothing
    ensures f.begin.Some? ==> r == TxRun(db, Failure(Plain(Driver(f.begin.value))), [])
    // nothing of a failed transaction persists
    ensures r.result.Failure? ==> r.db == db
    // what commits is exactly the body's state, and only when the body and COMMIT both succeed
    ensures r.result.Success? <==>
      f.begin.None? && body(Begin(db)).result.Success? && !body(Begin(db)).tx.aborted && f.commit.None?
    ensures r.result.Success? ==>
      r.db == body(Begin(db)).tx.db && r.result.value == body(Begin(db)).result.value
    ensures f.begin.None? ==> r.log == body(Begin(db)).tx.log
    // a failing body's error is returned, joined with the rollback's if that fails too
    ensures f.begin.None? && body(Begin(db)).result.Failure? ==>
      var e := body(Begin(db)).result.error;
      r.result == Failure(if f.rollback.Some? then TxAndRollback(e, Driver(f.rollback.value)) else Plain(e))
  {
    if f.begin.Some? then TxRun(db, Failure(Plain(Driver(f.begin.value))), [])
    else
      var step := body(Begin(db));
      if step.result.Failure? then
        var e := step.result.error;
        TxRun(db, Failure(if f.rollback.Some? then TxAndRollback(e, Driver(f.rollback.value)) else Plain(e)), step.tx.log)
      else if step.tx.aborted then
        // PostgreSQL answers COMMIT of a failed transaction with ROLLBACK
        TxRun(db, Failure(Plain(CommitRolledBack)), step.tx.log)
      else if f.commit.Some? then
        TxRun(db, Failure(Plain(Driver(f.commit.value))), step.tx.log)
      else
        TxRun(step.tx.db, Success(step.result.value), step.tx.log)
  }

  /** When BEGIN fails the body is never consulted: any two bodies give the
      same outcome. */
  lemma ExecTxBeginFailureIgnoresBody<T>(db: Db, f: TxFaults, body1: Tx -> Step<T>, body2: Tx -> Step<T>)
    requires f.begin.Some?
    ensures ExecTx(db, f, body1) == ExecTx(db, f, body2)
  {
  }

  /** BEGIN opens a transaction on the committed store: a body that sends
      nothing and succeeds commits the store unchanged, sends nothing, and
      fails only when COMMIT does. */
  lemma EmptyTransactionCommitsUnchanged<T>(db: Db, f: TxFaults, v: T)
    requires f.begin.None?
    ensures var r := ExecTx(db, f, (tx: Tx) => Step(tx, Success(v)));
      && r.db == db && r.log == []
      && (r.result.Success? <==> f.commit.None?)
      && (r.result.Success? ==> r.result.value == v)
  {
  }

  datatype TransferTxParams = TransferTxParams(fromAccountId: Int64, toAccountId: Int64, amount: Int64)

  datatype TransferTxResult = TransferTxResult(
    transfer: Transfer, fromAccount: Account, toAccount: Account, fromEntry: Entry, toEntry: Entry)

  /** Faults of every statement `TransferTx` can send, in sending order. */
  datatype TransferFaults = TransferFaults(
    tx: TxFaults,
    createTransfer: Option<string>,
    fromEntry: Option<string>,
    toEntry: Option<string>,
    firstUpdate: Option<string>,
    secondUpdate: Option<string>)

  function Min(a: Int64, b: Int64): Int64 { if a <= b then a else b }
  function Max(a: Int64, b: Int64): Int64 { if a <= b then b else a }

  /** The inserts of a transfer, in sending order. */
  function Inserts(arg: TransferTxParams): (s: seq<Stmt>)
    ensures |s| == 3
  {
    [InsertTransfer(arg.fromAccountId, arg.toAccountId, arg.amount),
     InsertEntry(arg.fromAccountId, Neg64(arg.amount)),
     InsertEntry(arg.toAccountId, arg.amount)]
  }

  /** The balance updates of a transfer, in sending order: the lower account
      id first, whichever side it is on. */
  function Updates(arg: TransferTxParams): (s: seq<Stmt>)
    ensures |s| == 2
  {
    var from, to, a := arg.fromAccountId, arg.toAccountId, arg.amount;
    if from < to then [AddBalance(from, Neg64(a)), AddBalance(to, a)]
    else [AddBalance(to, a), AddBalance(from, Neg64(a))]
  }

  /** The balance change a transfer means for account `x`. */
  function Delta(arg: TransferTxParams, x: Int64): int {
    (if x == arg.fromAccountId then Neg64(arg.amount) else 0)
    + (if x == arg.toAccountId then arg.amount else 0)
  }

  /** The ids whose balance the statements of `log` update, in order. */
  function UpdatedIds(log: seq<Stmt>): (ids: seq<Int64>)
    ensures |ids| <= |log|
  {
    if log == [] then []
    else (if log[0].AddBalance? then [log[0].accountId] else []) + UpdatedIds(log[1..])
  }

  lemma {:induction false} UpdatedIdsAppend(a: seq<Stmt>, b: seq<Stmt>)
    ensures UpdatedIds(a + b) == UpdatedIds(a) + UpdatedIds(b)
  {
    if a != [] {
      assert (a + b)[1..] == a[1..] + b;
      UpdatedIdsAppend(a[1..], b);
    } else {
      assert a + b == b;
    }
  }

  /** The result of `addMoney`: both returned rows (Go's zero value where a
      query failed or was skipped) and the first error. */
  datatype MoneyMove = MoneyMove(tx: Tx, account1: Account, account2: Account, err: Option<DbError>)

  /** `addMoney`: takes `amount` from `id1` and gives it to `id2`, in that
      order; when the first update fails the second is not sent. */
  function AddMoney(tx: Tx, amount: Int64, id1: Int64, id2: Int64, f1: Option<string>, f2: Option<string>): (r: MoneyMove)
    ensures r.tx.db.entries == tx.db.entries && r.tx.db.transfers == tx.db.transfers
    ensures r.tx.db.lastAccountId == tx.db.lastAccountId
    ensures BalancesOnly(tx.db.accounts, r.tx.db.accounts, {id1, id2})
    // the second update is sent only after the first one succeeded
    ensures |tx.log| < |r.tx.log| <= |tx.log| + 2
    ensures r.tx.log == tx.log + [AddBalance(id1, Neg64(amount)), AddBalance(id2, amount)][..|r.tx.log| - |tx.log|]
    ensures |r.tx.log| == |tx.log| + 1 ==> r.err.Some? && r.account1 == NoAccount && r.account2 == NoAccount
  {
    var s1 := AddAccountBalance(tx, id1, Neg64(amount), f1);
    if s1.result.Failure? then MoneyMove(s1.tx, NoAccount, NoAccount, Some(s1.result.error))
    else
      var s2 := AddAccountBalance(s1.tx, id2, amount, f2);
      MoneyMove(s2.tx, s1.result.value, s2.result.GetOr(NoAccount),
                if s2.result.Failure? then Some(s2.result.error) else None)
  }

  /** `addMoney` when the first id has no row: nothing changes and the second
      update is not sent, whether or not the first one faulted; only a fault
      poisons the transaction, since pgx's "no rows" does not. */
  lemma AddMoneyFirstMissing(tx: Tx, amount: Int64, id1: Int64, id2: Int64, f1: Option<string>, f2: Option<string>)
    requires !tx.aborted && id1 !in tx.db.accounts
    ensures var r := AddMoney(tx, amount, id1, id2, f1, f2);
      && r.tx.db == tx.db && r.tx.log == tx.log + [AddBalance(id1, Neg64(amount))]
      && (r.tx.aborted <==> f1.Some?)
  {
    var s1 := AddAccountBalance(tx, id1, Neg64(amount), f1);
    assert s1.result.Failure?;
  }

  /** `addMoney` when only the first id has a row: only that balance moves. */
  lemma AddMoneySecondMissing(tx: Tx, amount: Int64, id1: Int64, id2: Int64, f1: Option<string>, f2: Option<string>)
    requires !tx.aborted && id1 in tx.db.accounts && id2 !in tx.db.accounts
    requires !AddMoney(tx, amount, id1, id2, f1, f2).tx.aborted
    ensures var r := AddMoney(tx, amount, id1, id2, f1, f2);
      && BalancesOnly(tx.db.accounts, r.tx.db.accounts, {id1})
      && r.tx.db.accounts[id1].balance == tx.db.accounts[id1].balance + Neg64(amount)
  {
    var s1 := AddAccountBalance(tx, id1, Neg64(amount), f1);
    if s1.result.Success? {
      var s2 := AddAccountBalance(s1.tx, id2, amount, f2);
      assert s2.result.Failure? && s2.tx.db == s1.tx.db;
    }
  }

  /** `addMoney` when both ids have rows: `id1` loses `amount`, `id2` gains it. */
  lemma AddMoneyBoth(tx: Tx, amount: Int64, id1: Int64, id2: Int64, f1: Option<string>, f2: Option<string>)
    requires !tx.aborted && id1 in tx.db.accounts && id2 in tx.db.accounts
    requires !AddMoney(tx, amount, id1, id2, f1, f2).tx.aborted
    ensures var r := AddMoney(tx, amount, id1, id2, f1, f2);
      forall x :: x in tx.db.accounts ==>
        r.tx.db.accounts[x].balance == tx.db.accounts[x].balance
          + (if x == id1 then Neg64(amount) else 0) + (if x == id2 then amount else 0)
  {
    var s1 := AddAccountBalance(tx, id1, Neg64(amount), f1);
    assert s1.result.Success?;
    var s2 := AddAccountBalance(s1.tx, id2, amount, f2);
    assert s2.result.Success?;
  }

  /** The three inserts at the start of the body: the transfer row, the
      debit entry of the source and the credit entry of the destination. The
      first failure ends the body. */
  function InsertRows(arg: TransferTxParams, f: TransferFaults, tx: Tx): (r: Step<(Transfer, Entry, Entry)>)
    ensures |tx.log| < |r.tx.log| <= |tx.log| + 3
    ensures r.tx.log == tx.log + Inserts(arg)[..|r.tx.log| - |tx.log|]
    ensures r.tx.db.accounts == tx.db.accounts && r.tx.db.lastAccountId == tx.db.lastAccountId
    ensures r.result.Success? <==> !tx.aborted && f.createTransfer.None? && f.fromEntry.None? && f.toEntry.None?
    ensures r.result.Success? ==>
      && |r.tx.log| == |tx.log| + 3 && !r.tx.aborted
      && var t := Transfer(|tx.db.transfers| + 1, arg.fromAccountId, arg.toAccountId, arg.amount);
      && var e1 := Entry(|tx.db.entries| + 1, arg.fromAccountId, Neg64(arg.amount));
      && var e2 := Entry(|tx.db.entries| + 2, arg.toAccountId, arg.amount);
      && r.tx.db.transfers == tx.db.transfers + [t]
      && r.tx.db.entries == tx.db.entries + [e1, e2]
      && r.result.value == (t, e1, e2)
    // the error is the one of the first insert that failed
    ensures !tx.aborted && f.createTransfer.Some? ==> r.result == Failure(Driver(f.createTransfer.value))
    ensures !tx.aborted && f.createTransfer.None? && f.fromEntry.Some? ==> r.result == Failure(Driver(f.fromEntry.value))
    ensures !tx.aborted && f.createTransfer.None? && f.fromEntry.None? && f.toEntry.Some? ==>
      r.result == Failure(Driver(f.toEntry.value))
  {
    var from, to, a := arg.fromAccountId, arg.toAccountId, arg.amount;
    var st := CreateTransfer(tx, from, to, a, f.createTransfer);
    if st.result.Failure? then Step(st.tx, Failure(st.result.error))
    else
      var se1 := CreateEntry(st.tx, from, Neg64(a), f.fromEntry);
      if se1.result.Failure? then Step(se1.tx, Failure(se1.result.error))
      else
        var se2 := CreateEntry(se1.tx, to, a, f.toEntry);
        if se2.result.Failure? then Step(se2.tx, Failure(se2.result.error))
        else Step(se2.tx, Success((st.result.value, se1.result.value, se2.result.value)))
  }

  /** The `if` around `addMoney`: the account with the lower id is updated
      first, whichever side it is on. Returns the source's and the
      destination's rows. */
  function OrderedAddMoney(arg: TransferTxParams, f: TransferFaults, tx: Tx): (r: (Tx, Account, Account))
    ensures r.0.db.entries == tx.db.entries && r.0.db.transfers == tx.db.transfers
    ensures r.0.db.lastAccountId == tx.db.lastAccountId
    ensures BalancesOnly(tx.db.accounts, r.0.db.accounts, {arg.fromAccountId, arg.toAccountId})
    ensures |tx.log| < |r.0.log| <= |tx.log| + 2
    ensures r.0.log == tx.log + Updates(arg)[..|r.0.log| - |tx.log|]
  {
    var from, to, a := arg.fromAccountId, arg.toAccountId, arg.amount;
    if from < to then
      var mv := AddMoney(tx, a, from, to, f.firstUpdate, f.secondUpdate);
      (mv.tx, mv.account1, mv.account2)
    else
      NegNeg(a);
      var mv := AddMoney(tx, Neg64(a), to, from, f.firstUpdate, f.secondUpdate);
      (mv.tx, mv.account2, mv.account1)
  }

  /** The closure `TransferTx` hands to `execTx`: the inserts, then the
      balance updates, whose errors are dropped. It fails exactly when an
      insert fails. */
  function TransferBody(arg: TransferTxParams, f: TransferFaults, tx: Tx): (r: Step<TransferTxResult>)
    ensures r.result.Success? <==> !tx.aborted && f.createTransfer.None? && f.fromEntry.None? && f.toEntry.None?
  {
    var ins := InsertRows(arg, f, tx);
    if ins.result.Failure? then Step(ins.tx, Failure(ins.result.error))
    else
      var (transfer, fromEntry, toEntry) := ins.result.value;
      var (tx', fromAccount, toAccount) := OrderedAddMoney(arg, f, ins.tx);
      Step(tx', Success(TransferTxResult(transfer, fromAccount, toAccount, fromEntry, toEntry)))
  }

  /** The statements the body sends follow the script: the inserts up to and
      including the first that fails, and only after all three succeeded, the
      balance updates up to the first that fails. */
  lemma TransferBodyLog(arg: TransferTxParams, f: TransferFaults, tx: Tx)
    ensures var r := TransferBody(arg, f, tx);
      && (r.result.Failure? ==>
            |tx.log| < |r.tx.log| <= |tx.log| + 3 && r.tx.log == tx.log + Inserts(arg)[..|r.tx.log| - |tx.log|])
      && (r.result.Success? ==>
            |tx.log| + 3 < |r.tx.log| <= |tx.log| + 5
            && r.tx.log == tx.log + Inserts(arg) + Updates(arg)[..|r.tx.log| - |tx.log| - 3])
  {
    var ins := InsertRows(arg, f, tx);
    if ins.result.Success? {
      var out := OrderedAddMoney(arg, f, ins.tx);
      var k := |out.0.log| - |ins.tx.log|;
      assert ins.tx.log == tx.log + Inserts(arg);
      assert out.0.log == ins.tx.log + Updates(arg)[..k];
      assert out.0.log == tx.log + Inserts(arg) + Updates(arg)[..k];
      assert TransferBody(arg, f, tx).tx == out.0;
    } else {
      assert TransferBody(arg, f, tx).tx == ins.tx;
    }
  }

  /** The body creates no account and changes no account but the two named. */
  lemma TransferBodyAccounts(arg: TransferTxParams, f: TransferFaults, tx: Tx)
    ensures var r := TransferBody(arg, f, tx);
      && r.tx.db.lastAccountId == tx.db.lastAccountId
      && BalancesOnly(tx.db.accounts, r.tx.db.accounts, {arg.fromAccountId, arg.toAccountId})
  {
    var ins := InsertRows(arg, f, tx);
    if ins.result.Failure? {
      BalancesOnlyRefl(tx.db.accounts, {arg.fromAccountId, arg.toAccountId});
    } else {
      assert TransferBody(arg, f, tx).tx == OrderedAddMoney(arg, f, ins.tx).0;
    }
  }

  /** A successful body has written one transfer row and the two entries,
      numbered after the existing rows, and returns them. */
  lemma TransferBodyRows(arg: TransferTxParams, f: TransferFaults, tx: Tx)
    requires TransferBody(arg, f, tx).result.Success?
    ensures var r := TransferBody(arg, f, tx);
      && var t := Transfer(|tx.db.transfers| + 1, arg.fromAccountId, arg.toAccountId, arg.amount);
      && var e1 := Entry(|tx.db.entries| + 1, arg.fromAccountId, Neg64(arg.amount));
      && var e2 := Entry(|tx.db.entries| + 2, arg.toAccountId, arg.amount);
      && r.tx.db.transfers == tx.db.transfers + [t]
      && r.tx.db.entries == tx.db.entries + [e1, e2]
      && r.result.value.transfer == t && r.result.value.fromEntry == e1 && r.result.value.toEntry == e2
  {
    var ins := InsertRows(arg, f, tx);
    var out := OrderedAddMoney(arg, f, ins.tx);
    assert TransferBody(arg, f, tx).tx == out.0;
  }

  /** `TransferTx`: the transfer body run by `execTx`. */
  function TransferTx(db: Db, arg: TransferTxParams, f: TransferFaults): (r: TxRun<TransferTxResult>)
    ensures f.tx.begin.Some? ==> r == TxRun(db, Failure(Plain(Driver(f.tx.begin.value))), [])
    ensures r.result.Failure? ==> r.db == db
  {
    ExecTx(db, f.tx, tx => TransferBody(arg, f, tx))
  }

  /** What `TransferTx` commits is what its body built in a fresh transaction. */
  lemma TransferTxRunsBody(db: Db, arg: TransferTxParams, f: TransferFaults)
    ensures var r := TransferTx(db, arg, f);
      var step := TransferBody(arg, f, Begin(db));
      && (r.result.Success? ==>
            step.result.Success? && !step.tx.aborted && r.db == step.tx.db && r.result.value == step.result.value)
      && (f.tx.begin.None? ==> r.log == step.tx.log)
      && (f.tx.begin.None? && step.result.Failure? ==>
            r.result == Failure(if f.tx.rollback.Some? then TxAndRollback(step.result.error, Driver(f.tx.rollback.value))
                                else Plain(step.result.error)))
      && (f.tx.begin.None? && step.result.Success? && !step.tx.aborted && f.tx.commit.None? ==> r.result.Success?)
  {
  }

  /** A committed transfer adds exactly one transfer row and the two entries. */
  lemma TransferTxWritesRows(db: Db, arg: TransferTxParams, f: TransferFaults)
    requires TransferTx(db, arg, f).result.Success?
    ensures var r := TransferTx(db, arg, f);
      && var t := Transfer(|db.transfers| + 1, arg.fromAccountId, arg.toAccountId, arg.amount);
      && var e1 := Entry(|db.entries| + 1, arg.fromAccountId, Neg64(arg.amount));
      && var e2 := Entry(|db.entries| + 2, arg.toAccountId, arg.amount);
      && r.db.transfers == db.transfers + [t]
      && r.db.entries == db.entries + [e1, e2]
      && r.result.value.transfer == t && r.result.value.fromEntry == e1 && r.result.value.toEntry == e2
  {
    TransferTxRunsBody(db, arg, f);
    TransferBodyRows(arg, f, Begin(db));
  }

  /** Whatever happens, no account appears or disappears and none but the two
      named changes. */
  lemma TransferTxAccounts(db: Db, arg: TransferTxParams, f: TransferFaults)
    ensures var r := TransferTx(db, arg, f);
      && r.db.lastAccountId == db.lastAccountId
      && BalancesOnly(db.accounts, r.db.accounts, {arg.fromAccountId, arg.toAccountId})
  {
    TransferTxRunsBody(db, arg, f);
    if TransferTx(db, arg, f).result.Success? {
      TransferBodyAccounts(arg, f, Begin(db));
    } else {
      BalancesOnlyRefl(db.accounts, {arg.fromAccountId, arg.toAccountId});
    }
  }

  /** The statements a transfer sends follow the script and stop at the first
      failure; a failed BEGIN sends none. */
  lemma TransferTxLog(db: Db, arg: TransferTxParams, f: TransferFaults)
    ensures var log := TransferTx(db, arg, f).log;
      && (|log| <= 3 ==> log == Inserts(arg)[..|log|])
      && (|log| > 3 ==> |log| <= 5 && log == Inserts(arg) + Updates(arg)[..|log| - 3])
      && (f.tx.begin.None? ==> |log| > 0)
  {
    TransferTxRunsBody(db, arg, f);
    if f.tx.begin.None? {
      TransferBodyLog(arg, f, Begin(db));
    }
  }
}

=== FILE: update_user.dfy ===
/** The gRPC `UpdateUser` of api/grpc_api/update_user.go: authentication,
    then authorization, then validation of the fields present, then one
    store update whose optional columns are flagged by the presence of the
    request's fields. The field validators, the password hasher, the clock
    and the store are parameters. */
module UpdateUser {
  import opened Wrappers
  import opened Queries
  import Auth
  import Http

  /** A request: the username is always sent, the other fields may be
      absent. */
  datatype UpdateUserRequest = UpdateUserRequest(
    username: string, fullName: Option<string>, email: Option<string>, password: Option<string>)

  /** `pgtype.Text` and `pgtype.Timestamptz`: a value and whether it is set;
      an unset column is left as it is by the update. */
  datatype Text = Text(s: string, valid: bool)
  datatype Timestamptz = Timestamptz(time: int, valid: bool)

  datatype UpdateUserParams = UpdateUserParams(
    username: string, fullname: Text, email: Text, password: Text, passwordChangedAt: Timestamptz)

  /** The stored user the update returns. */
  datatype User = User(username: string, fullname: string, email: string, passwordChangedAt: int, createdAt: int)

  datatype FieldViolation = FieldViolation(field: string, description: string)

  datatype Code = Unauthenticated | PermissionDenied | InvalidArgument | NotFound | Internal

  /** A gRPC error: its code and either a message or the field violations
      (whose message is left empty). */
  datatype RpcError = RpcError(code: Code, message: string, violations: seq<FieldViolation>)

  /** The four field validators, each giving an error message for a value
      it rejects. */
  datatype Validators = Validators(
    username: string -> Option<string>,
    password: string -> Option<string>,
    fullName: string -> Option<string>,
    email: string -> Option<string>)

  /** The collaborators of the call: the token verifier, the validators, the
      password hasher, the current time and the store's update. */
  datatype UpdateEnv = UpdateEnv(
    verify: Auth.Verifier,
    validate: Validators,
    hash: string -> Result<string, string>,
    now: int,
    update: UpdateUserParams -> Result<User, DbError>)

  /** What a call leaves behind: the parameters the store was called with,
      if it was, and the reply. */
  datatype UpdateOutcome = UpdateOutcome(stored: Option<UpdateUserParams>, reply: Result<User, RpcError>)

  /** The request's value of a checked field, if it was sent. */
  function FieldValue(req: UpdateUserRequest, field: string): Option<string> {
    if field == "username" then Some(req.username)
    else if field == "password" then req.password
    else if field == "full_name" then req.fullName
    else if field == "email" then req.email
    else None
  }

  function ValidatorFor(val: Validators, field: string): string -> Option<string> {
    if field == "username" then val.username
    else if field == "password" then val.password
    else if field == "full_name" then val.fullName
    else val.email
  }

  /** The field was sent and its validator rejects it. */
  predicate Rejects(req: UpdateUserRequest, val: Validators, field: string) {
    FieldValue(req, field).Some? && ValidatorFor(val, field)(FieldValue(req, field).value).Some?
  }

  /** The number of checked fields that are sent and rejected. */
  function RejectCount(req: UpdateUserRequest, val: Validators): nat {
    (if Rejects(req, val, "username") then 1 else 0) + (if Rejects(req, val, "password") then 1 else 0)
      + (if Rejects(req, val, "full_name") then 1 else 0) + (if Rejects(req, val, "email") then 1 else 0)
  }

  /** The position of each checked field in the order the checks run. */
  function Rank(field: string): int {
    if field == "username" then 0
    else if field == "password" then 1
    else if field == "full_name" then 2
    else if field == "email" then 3
    else 4
  }

  /** A violation names a checked field that was sent and rejected, with the
      validator's message. */
  predicate Reported(req: UpdateUserRequest, val: Validators, v: FieldViolation) {
    && Rank(v.field) < 4 && Rejects(req, val, v.field)
    && v.description == ValidatorFor(val, v.field)(FieldValue(req, v.field).value).value
  }

  predicate AllReported(req: UpdateUserRequest, val: Validators, vs: seq<FieldViolation>) {
    forall i :: 0 <= i < |vs| ==> Reported(req, val, vs[i])
  }

  /** The violations name their fields in strictly increasing check order,
      so no field is named twice. */
  predicate InCheckOrder(vs: seq<FieldViolation>) {
    forall i, j :: 0 <= i < j < |vs| ==> Rank(vs[i].field) < Rank(vs[j].field)
  }

  predicate Below(vs: seq<FieldViolation>, k: int) {
    forall i :: 0 <= i < |vs| ==> Rank(vs[i].field) < k
  }

  /** The violation of one field, when the field is sent and rejected. */
  function Check(req: UpdateUserRequest, val: Validators, field: string): (vs: seq<FieldViolation>)
    requires Rank(field) < 4
    ensures |vs| == (if Rejects(req, val, field) then 1 else 0)
    ensures vs != [] ==> vs[0].field == field && Reported(req, val, vs[0])
  {
    var v := FieldValue(req, field);
    if v.Some? && ValidatorFor(val, field)(v.value).Some? then
      [FieldViolation(field, ValidatorFor(val, field)(v.value).value)]
    else []
  }

  /** Appending the violation of the field ranked `k` keeps the list
      reported and in check order. */
  lemma AppendCheck(req: UpdateUserRequest, val: Validators, a: seq<FieldViolation>, b: seq<FieldViolation>, k: int)
    requires AllReported(req, val, a) && InCheckOrder(a) && Below(a, k)
    requires |b| <= 1 && (b != [] ==> Rank(b[0].field) == k && Reported(req, val, b[0]))
    ensures AllReported(req, val, a + b) && InCheckOrder(a + b) && Below(a + b, k + 1)
  {
  }

  /** `validateUpdateUserRequest`: the username is always checked, the other
      fields only when sent. */
  function ValidateUpdateUserRequest(req: UpdateUserRequest, val: Validators): (vs: seq<FieldViolation>)
    // one violation per rejected field: each names a sent, rejected field with its message,
    // no field twice, in the order the checks run, and as many as there are rejected fields
    ensures AllReported(req, val, vs) && InCheckOrder(vs)
    ensures |vs| == RejectCount(req, val)
  {
    var u := Check(req, val, "username");
    var p := Check(req, val, "password");
    var f := Check(req, val, "full_name");
    var e := Check(req, val, "email");
    AppendCheck(req, val, [], u, 0);
    assert [] + u == u;
    AppendCheck(req, val, u, p, 1);
    AppendCheck(req, val, u + p, f, 2);
    AppendCheck(req, val, u + p + f, e, 3);
    u + p + f + e
  }

  /** No violation exactly when no field that was sent is rejected; a
      rejected username always comes first. */
  lemma ValidationPasses(req: UpdateUserRequest, val: Validators)
    ensures ValidateUpdateUserRequest(req, val) == [] <==>
      && val.username(req.username).None?
      && (req.password.Some? ==> val.password(req.password.value).None?)
      && (req.fullName.Some? ==> val.fullName(req.fullName.value).None?)
      && (req.email.Some? ==> val.email(req.email.value).None?)
    ensures val.username(req.username).Some? ==> ValidateUpdateUserRequest(req, val)[0].field == "username"
  {
    var vs := ValidateUpdateUserRequest(req, val);
    if val.username(req.username).Some? {
      assert Rejects(req, val, "username");
      assert |vs| >= 1;
    }
  }

  /** The update parameters: each optional column is set exactly when its
      field was sent, and a new password comes with its hash and the time of
      the change. Fails only when the hasher does. */
  function BuildParams(req: UpdateUserRequest, hash: string -> Result<string, string>, now: int): (r: Result<UpdateUserParams, string>)
    ensures r.Failure? <==> req.password.Some? && hash(req.password.value).Failure?
    ensures r.Success? ==>
      var a := r.value;
      && a.username == req.username
      && a.fullname.valid == req.fullName.Some? && a.fullname.s == req.fullName.GetOr("")
      && a.email.valid == req.email.Some? && a.email.s == req.email.GetOr("")
      && a.password.valid == a.passwordChangedAt.valid == req.password.Some?
      && (req.password.Some? ==>
            a.password.s == hash(req.password.value).value && a.passwordChangedAt.time == now)
  {
    var base := UpdateUserParams(
      req.username,
      Text(req.fullName.GetOr(""), req.fullName.Some?),
      Text(req.email.GetOr(""), req.email.Some?),
      Text("", false),
      Timestamptz(0, false));
    if req.password.None? then Success(base)
    else
      var h := hash(req.password.value);
      if h.Failure? then Failure(h.error)
      else Success(base.(password := Text(h.value, true), passwordChangedAt := Timestamptz(now, true)))
  }

  function Fail(code: Code, message: string): RpcError {
    RpcError(code, message, [])
  }

  /** The status a failed store update is meant to get: NotFound for a
      missing row, Internal otherwise. */
  function StoreError(e: DbError): (err: RpcError)
    ensures err.code == NotFound <==> e.NoRows?
    ensures err.code != NotFound ==> err.code == Internal
  {
    if e.NoRows? then Fail(NotFound, "user not found")
    else Fail(Internal, "cannot register user: " + Http.ErrorText(e))
  }

  /** The store error as written: `database/sql`'s sentinel only. */
  function StoreErrorAsWritten(e: DbError): (err: RpcError)
    ensures err.code == NotFound <==> e == NoRows(DatabaseSql)
    ensures err.code != NotFound ==> err.code == Internal
  {
    if e == NoRows(DatabaseSql) then Fail(NotFound, "user not found")
    else Fail(Internal, "cannot register user: " + Http.ErrorText(e))
  }

  /** The reply to a failed store update in the handler of `version`: a
      user with no row is Internal as written and NotFound as intended; any
      other error is Internal in both. */
  function StoreFailure(version: Http.Version, e: DbError): (err: RpcError)
    ensures e == NoRows(Pgx) && version.AsWritten? ==>
      err == Fail(Internal, "cannot register user: " + Http.ErrorText(NoRows(Pgx)))
    ensures e == NoRows(Pgx) && version.Intended? ==> err == Fail(NotFound, "user not found")
    ensures !e.NoRows? ==> err.code == Internal
  {
    if version.AsWritten? then StoreErrorAsWritten(e) else StoreError(e)
  }

  /** `UpdateUser`. The first failing check decides the reply, and the
      store is called only when all of them pass. */
  function UpdateUser(version: Http.Version, md: Auth.Metadata, req: UpdateUserRequest, env: UpdateEnv): (r: UpdateOutcome)
    ensures Auth.AuthorizeUser(md, env.verify).Failure? ==>
      r == UpdateOutcome(None, Failure(Fail(Unauthenticated, Auth.AuthorizeUser(md, env.verify).error)))
    ensures Auth.AuthorizeUser(md, env.verify).Success? && Auth.AuthorizeUser(md, env.verify).value != req.username ==>
      r == UpdateOutcome(None, Failure(Fail(PermissionDenied, "cannot update other user's info!")))
    ensures r.reply.Failure? && r.reply.error.code == InvalidArgument ==>
      r.stored.None? && r.reply.error.violations == ValidateUpdateUserRequest(req, env.validate) != []
    // the store is called exactly for an authenticated owner's valid request whose password hashes
    ensures r.stored.Some? <==>
      && Auth.AuthorizeUser(md, env.verify) == Success(req.username)
      && ValidateUpdateUserRequest(req, env.validate) == []
      && BuildParams(req, env.hash, env.now).Success?
    ensures r.stored.Some? ==>
      && r.stored.value == BuildParams(req, env.hash, env.now).value
      && (r.reply.Success? <==> env.update(r.stored.value).Success?)
      && (r.reply.Success? ==> r.reply.value == env.update(r.stored.value).value)
    // a user with no row: Internal as written, NotFound as intended; every other store error is Internal
    ensures r.stored.Some? && env.update(r.stored.value).Failure? ==>
      var e := env.update(r.stored.value).error;
      && (e == NoRows(Pgx) && version.AsWritten? ==>
            r.reply.error == Fail(Internal, "cannot register user: " + Http.ErrorText(NoRows(Pgx))))
      && (e == NoRows(Pgx) && version.Intended? ==> r.reply.error == Fail(NotFound, "user not found"))
      && (!e.NoRows? ==> r.reply.error.code == Internal)
  {
    var payload := Auth.AuthorizeUser(md, env.verify);
    if payload.Failure? then UpdateOutcome(None, Failure(Fail(Unauthenticated, payload.error)))
    else if payload.value != req.username then
      UpdateOutcome(None, Failure(Fail(PermissionDenied, "cannot update other user's info!")))
    else
      var violations := ValidateUpdateUserRequest(req, env.validate);
      if violations != [] then UpdateOutcome(None, Failure(RpcError(InvalidArgument, "", violations)))
      else
        var args := BuildParams(req, env.hash, env.now);
        if args.Failure? then UpdateOutcome(None, Failure(Fail(Internal, "failed to hash password: " + args.error)))
        else
          var user := env.update(args.value);
          if user.Failure? then UpdateOutcome(Some(args.value), Failure(StoreFailure(version, user.error)))
          else UpdateOutcome(Some(args.value), Success(user.value))
  }

  /** Authentication is checked before anything else, and authorization
      before validation: an invalid request from an unauthenticated caller
      or about another user never reaches the validators. */
  lemma ChecksInOrder(version: Http.Version, md: Auth.Metadata, req: UpdateUserRequest, env: UpdateEnv)
    requires ValidateUpdateUserRequest(req, env.validate) != []
    ensures var r := UpdateUser(version, md, req, env);
      && (Auth.AuthorizeUser(md, env.verify).Failure? ==> r.reply.error.code == Unauthenticated)
      && (Auth.AuthorizeUser(md, env.verify).Success? && Auth.AuthorizeUser(md, env.verify).value != req.username ==>
            r.reply.error.code == PermissionDenied)
      && (Auth.AuthorizeUser(md, env.verify) == Success(req.username) ==>
            r.reply.error.code == InvalidArgument && r.stored.None?)
  {
  }

  /** A request without a password leaves the password columns untouched
      and never calls the hasher: two hashers give the same outcome. */
  lemma NoPasswordNoHash(version: Http.Version, md: Auth.Metadata, req: UpdateUserRequest, env: UpdateEnv, hash2: string -> Result<string, string>)
    requires req.password.None?
    ensures UpdateUser(version, md, req, env) == UpdateUser(version, md, req, env.(hash := hash2))
    ensures var r := UpdateUser(version, md, req, env);
      r.stored.Some? ==> !r.stored.value.password.valid && !r.stored.value.passwordChangedAt.valid
  {
  }

  /** The two store-error classifications part exactly on pgx's "no rows":
      as written a missing user is reported as an internal error. */
  lemma StoreErrorsDiffer(e: DbError)
    ensures StoreError(e).code != StoreErrorAsWritten(e).code <==> e == NoRows(Pgx)
  {
    var fixed, asWritten := StoreError(e), StoreErrorAsWritten(e);
    if e.NoRows? {
      assert e.origin == Pgx || e.origin == DatabaseSql;
    } else {
      assert fixed.code == Internal && asWritten.code == Internal;
    }
  }
}

=== FILE: wrappers.dfy ===
/** Failure-carrying datatypes shared by every module of the model.
    Go's `(value, error)` pairs become `Result`; nilable fields become `Option`. */
module Wrappers {

  datatype Option<+T> = None | Some(value: T) {
    function GetOr(default: T): T {
      match this
      case Some(v) => v
      case None => default
    }
  }

  datatype Result<+R, +E> = Success(value: R) | Failure(error: E) {
    function GetOr(default: R): R {
      match this
      case Success(v) => v
      case Failure(_) => default
    }
  }
}
